=== FILE: README.md ===
# Dentist appointment booking assistant, modelled in Dafny

The booking assistant is a chat-bot back end for one intent, MakeAppointment. It has
three slots: appointment type, date and time. On every turn the bot is called in one
of three phases:

- the dialog phase (`DialogCodeHook`);
- the fulfilment phase (`FulfillmentCodeHook`);
- any other phase.

It is also handed the session's availability store, `bookingMap`. This maps a date text
to the half-hour start times still free on that day.

`make_appointment` uses these inputs to pick exactly one reply. The reply is one of:

- elicit a slot, with a message and an optional response card;
- ask to confirm the intent;
- delegate back to the bot;
- close as fulfilled or failed.

It also gives back the store, possibly changed:

- In the dialog phase, the resolver does three things:
  - It validates the slots.
  - It generates the day's start times the first time the day is asked about.
  - It narrows them to the times that suit the appointment's length. Then it asks,
    backtracks, delegates, confirms or offers times.
- In the fulfilment phase, it takes the booked start time from the day's list. A
  60-minute appointment also takes the half hour after it.

The model is purely functional. `Session` holds the decoded store and the rendered
time. `Action` is the four replies as a tagged variant. `Result` carries the exceptions
the source lets escape. Two things are parameters:

- **Date parsing** is `parse: string -> Option<int>`. The result is a day number with
  the convention of `date.toordinal()`, so 0001-01-01 is day 1.
- **Today** is `today: int`.

Everything else is concrete:

- `int()`, `str()`, `f"{n:02d}"`, `split`, `lower` and `zfill`;
- the weekday, and `strftime('%Y-%m-%d')` via a civil-from-days conversion;
- the 10:00–17:00 half-hour grid;
- the messages, cards and buttons.

Modules, in dependency order:

| module | file | what it holds |
|---|---|---|
| `Basics` | basics.dfy | `Option`, `Result` |
| `Text` | text.dfy | Python's integer/string conversions and `split` |
| `Clock` | clock.dfy | "H:M" times, the half-hour increment, the grid, padding, 12-hour rendering |
| `Calendar` | calendar.dfy | day numbers, weekdays, `%Y-%m-%d`, the next working days |
| `Availability` | availability.dfy | generated list, durations, the duration filter, `is_available`, the booking edit |
| `Intent` | intent.dfy | slots, slot names, invocation phases |
| `Validation` | validation.dfy | `validate_book_appointment` |
| `Responses` | responses.dfy | response cards, button options, the "we have availabilities" sentence |
| `Dialog` | dialog.dfy | `make_appointment`: the dialog hook, fulfilment, dispatch |
| `DialogProperties` | dialog_properties.dfy | properties of the resolver, one branch or one turn at a time and across two turns |

## Behaviour of the code worth knowing

The code does the following, and so does the model:

- **Other durations in the filter.** `get_availabilities_for_duration` does not fail on a
  duration other than 30 or 60. It treats every such duration like 60. Only
  `is_available` raises on an unknown duration (lambda_function.py:218-221, 204).
- **A missing booked time raises.** At fulfilment, `list.remove` raises when the booked
  time is absent, or when the half hour after it is absent. Nothing tolerates this. The
  model returns `Failure(NotInList(..))` (lambda_function.py:555, 558).
- **The list is written under two keys.** The list that fulfilment shortens is the very
  list object stored under the parsed-date key. Afterwards it is also stored under the
  normalised date text. So both keys end up holding the shortened list
  (lambda_function.py:541, 560). When the parser reads back its own `%Y-%m-%d` output,
  the two keys are the same (`DialogProperties.NormalizedDateIsKey`).
- **No list still closes as fulfilled.** An absent or empty list at fulfilment books
  nothing, yet the call still closes as `Fulfilled` (lambda_function.py:554-575).
- **The `Time` button read back.** Time buttons are read from the store under the date
  text, not under the parsed-date key (lambda_function.py:346, 512).

## Model

| member | source | states |
|---|---|---|
| Text.IntToStringParses | lambda_function.py:143-144 | reading a number back with `int()` after `str()` wrote it gives the same number |
| Text.Pad2Parses | lambda_function.py:538 | `int(f"{n:02d}") == n` for every integer n |
| Text.SplitPair | lambda_function.py:143 | splitting `a + ":" + b` on ':' gives exactly `[a, b]` when neither part contains ':' |
| Text.NatToString | lambda_function.py:144 | `str(n)` is a digit run with no ':' or '-' whose value is n |
| Text.ParseInt | lambda_function.py:107-111 | `int()` (a failure is `None`, `parse_int`'s NaN); no contract of its own, its behaviour is stated by `Text.IntToStringParses` and `Text.Pad2Parses` |
| Clock.ClockOf | lambda_function.py:143 | two integer texts joined by ':' unpack into exactly those two integers |
| Clock.Increment | lambda_function.py:142-144 | H:30 becomes (H+1):00, any other minute gives H:30 (minute text exactly "00" or "30"), 30 minutes later on the grid minutes, hour written unpadded |
| Clock.GridStep | lambda_function.py:223 | incrementing grid start k gives grid start k+1 |
| Clock.GridEnds | lambda_function.py:215-216 | the walk starts at grid start 0, "10:00", and its end mark "17:00" is grid start 14 |
| Clock.GridInjective | lambda_function.py:216 | distinct grid indices give distinct strings, so the walk stops only at the end mark |
| Clock.GridClock | lambda_function.py:215-223 | grid start k is a clock at 10:00 plus 30k minutes |
| Clock.OnGrid | lambda_function.py:215-223 | a string on the grid is grid start k for some k < 14 |
| Clock.Canonical | lambda_function.py:537-538 | padding a time keeps its hour and minute, and its two parts are exactly the two-digit `:02d` texts of them |
| Clock.CanonicalGrid | lambda_function.py:537-538 | padding a grid start leaves it unchanged, so a grid time is booked under its own text |
| Clock.TimeOutput | lambda_function.py:292-304 | the shown hour, the minute zero-filled to two places, and "p.m." exactly from noon |
| Clock.TwelveHourRoundTrip | lambda_function.py:292-304 | on hours 0..23 the 12-hour hour is in 1..12 and, with "a.m."/"p.m." (p.m. from noon), identifies the hour |
| Clock.GridShown | lambda_function.py:292-304 | a grid start renders as its 12-hour hour, its own minute text, and "p.m." from 12:00 on |
| Calendar.ToCivil | lambda_function.py:336-339 | every day number has a month in 1..12 and a day from 1 to that month's Gregorian length, 29 in February only in a leap year |
| Calendar.CivilRoundTrip | lambda_function.py:336-339 | `DaysFromCivil` undoes `ToCivil` on every day number |
| Calendar.CivilInjective | lambda_function.py:336-339 | distinct day numbers have distinct dates |
| Calendar.YearsFromOne | lambda_function.py:339 | from day 1 on, the year is at least 1 |
| Calendar.FormatIso | lambda_function.py:339 | `strftime('%Y-%m-%d')`; no contract of its own, its behaviour is stated by `Calendar.IsoRoundTrip` and `Calendar.IsoInjective` |
| Calendar.IsoTextReads | lambda_function.py:339 | a text written from non-negative year, month and day splits on '-' into the three parts and reads back as the same date |
| Calendar.IsoRoundTrip | lambda_function.py:339 | from day 1 on, the date value splits into year, padded month and padded day, and reads back as the same day |
| Calendar.IsoInjective | lambda_function.py:339 | distinct days from day 1 on get distinct date values |
| Calendar.DateLabel | lambda_function.py:338 | the date button text; no contract of its own, its behaviour is stated by `Calendar.DateLabelReads` |
| Calendar.DateLabelReads | lambda_function.py:338 | the label splits on '-' into the unpadded month, which reads back, and the unpadded day with the weekday's own short name |
| Calendar.FirstDay | lambda_function.py:339 | day 1 is 0001-01-01, a Monday |
| Calendar.EpochDay | lambda_function.py:339 | day 719163 is 1970-01-01, a Thursday |
| Calendar.SampleSaturday | lambda_function.py:282 | day 739899 is 2026-10-10, a Saturday |
| Calendar.WorkdaysAfter | lambda_function.py:333-341 | exactly n days, all after `from`, all Monday-Friday, strictly increasing, with no working day skipped |
| Availability.WeekdaySlotsOnGrid | lambda_function.py:166-170 | the ten weekday starts are the grid starts 0-3 and 8-13 |
| Availability.GetAvailabilities | lambda_function.py:154-180 | the ten-slot list exactly when the date parses to Monday-Friday, otherwise empty |
| Availability.Duration | lambda_function.py:206-208 | case-insensitively, cleaning and whitening are 30 and root canal 60; any other type has no duration |
| Availability.ForDuration | lambda_function.py:210-225 | the filter as flags over the fourteen grid starts; no contract of its own, its behaviour is stated by `Availability.AvailabilitiesForDuration` and `Availability.ForDurationShape` |
| Availability.KeepsNext | lambda_function.py:217-223 | the successor the filter asks about is `Increment` of the grid start, the next grid start |
| Availability.AvailabilitiesForDuration | lambda_function.py:210-225 | the grid walk from "10:00" to "17:00" returns the independent flag-based definition `ForDuration` |
| Availability.ForDurationShape | lambda_function.py:210-225 | ascending grid times all present in the input; for 30 exactly the grid times present; otherwise each kept start's successor is present |
| Availability.IsAvailable | lambda_function.py:194-204 | raises exactly for durations other than 30 and 60; true exactly when the time is free, and its successor too for 60 |
| Availability.AvailableIffKept | lambda_function.py:194-225 | for a grid time and 30 or 60, `is_available` holds iff the filter keeps the time |
| Availability.KeptAreAvailable | lambda_function.py:210-225 | every kept start is a grid clock that `is_available` accepts |
| Availability.ForDurationOfWeekday | lambda_function.py:166-170 | on the weekday list, 30-minute starts are the ten times, 60-minute starts need the next grid start listed |
| Availability.RemoveFirst | lambda_function.py:555 | `list.remove`: the first occurrence goes and the rest keeps its order; one element shorter, multiset minus the item |
| Availability.RemoveTwo | lambda_function.py:555-558 | after removing the booked start a different successor is present exactly when it was, and both removals leave the multiset |
| Availability.Book | lambda_function.py:554-559 | raises exactly when the time (or its successor for 60) is missing; otherwise the list after `list.remove` of the time (then of its successor for 60), in order |
| Validation.TimeProblem | lambda_function.py:242-265 | a time passes iff five characters, two integers, hour 10-16, minute 0 or 30; each failure carries its own message |
| Validation.DateProblem | lambda_function.py:267-288 | a date passes iff it parses to a working day after today; unreadable, too-early and weekend dates each carry their own message |
| Validation.Validate | lambda_function.py:234-290 | valid iff every present slot passes; otherwise the first failing slot in the order type, time, date, with its own message |
| Validation.AcceptedTimeOnGrid | lambda_function.py:242-261 | an accepted time unpacks, and its padded form is grid start 2(h-10)+m/30 |
| Validation.GridTimeAccepted | lambda_function.py:242-261 | every grid start passes the time checks |
| Validation.OfferedDateAccepted | lambda_function.py:331-341 | a date button passes the date checks when the parser reads `%Y-%m-%d` as year, month and day |
| Responses.ResponseCard | lambda_function.py:85-103 | no buttons without options, otherwise exactly the first min(5, n) options |
| Responses.AvailableTimeString | lambda_function.py:306-318 | the sentence names exactly the first min(3, n) rendered times as an English list, saying "plenty" iff n > 3 |
| Responses.SentenceLists | lambda_function.py:314-318 | the two- and three-time sentences are the opening followed by the English list |
| Responses.TypeOptionsKnown | lambda_function.py:325-330 | every type button's value has a duration |
| Responses.DateOptions | lambda_function.py:331-341 | five buttons, one per next working day, labelled month-day (weekday) and valued `%Y-%m-%d` |
| Responses.TimeButtons | lambda_function.py:354-358 | at most five buttons, rendered text and raw value |
| Responses.TimeOptions | lambda_function.py:342-358 | none iff type or date missing, no stored list, or no usable time; otherwise the time buttons of the usable times: the first min(5, n), each with its 12-hour text and its raw value |
| Responses.EmptyListKeepsNothing | lambda_function.py:347-352 | the filter keeps nothing of an empty list |
| Responses.OfferedTimesBookable | lambda_function.py:342-358 | every time button is a grid clock that `is_available` accepts on that day |
| Responses.BuildOptions | lambda_function.py:320-358 | the three type buttons for the type, exactly the five date buttons for the date, the time options for the time |
| Dialog.NormalizeDate | lambda_function.py:376-382 | a parsing date becomes its `%Y-%m-%d` text, any other date stays as given; presence is kept |
| Dialog.DialogHook | lambda_function.py:388-516 | the dialog hook never closes the intent; it elicits, confirms or delegates |
| Dialog.ScheduleOnDate | lambda_function.py:433-514 | the schedule step never closes the intent |
| Dialog.Fulfil | lambda_function.py:523-575 | every fulfilment that does not raise closes the intent |
| Dialog.Commit | lambda_function.py:554-575 | a booking that does not raise closes as fulfilled with the booking message for the type, time and date |
| Dialog.MakeAppointment | lambda_function.py:360-586 | a turn that does not raise closes the intent exactly when it is a fulfilment |
| Dialog.OfferTimes | lambda_function.py:484-514 | confirm exactly when one time is usable, elicit the time exactly when two or more are |
| DialogProperties.InvalidSlotReElicited | lambda_function.py:389-403 | an invalid slot is cleared (only it), elicited with its message and its options, session unchanged |
| DialogProperties.MissingTypeAsked | lambda_function.py:405-417 | with valid slots and no type, the type is asked with the three type buttons |
| DialogProperties.MissingDateAsked | lambda_function.py:419-431 | with a type and no date, the date is asked naming the type, with five date buttons |
| DialogProperties.UnreadableDateAsked | lambda_function.py:449-458 | a date the parser cannot read is asked again in YYYY-MM-DD form |
| DialogProperties.ReachesSchedule | lambda_function.py:433-436 | valid slots with a type and a parsing date go on to the day's schedule |
| DialogProperties.DialogNeverFails | lambda_function.py:388-516 | the dialog hook never raises, since a valid type has a known duration |
| DialogProperties.EmptyDayBacktracks | lambda_function.py:460-475 | no usable time clears date and time and elicits the date with five date buttons |
| DialogProperties.RequestedTimeDelegated | lambda_function.py:477-482 | a requested time delegates iff it is free, with its successor for 60 minutes |
| DialogProperties.RequestedTimeNoted | lambda_function.py:478-479 | a requested time is rendered into the session next to the looked-up store |
| DialogProperties.ScheduleOffers | lambda_function.py:477-514 | on a day with usable times the hook delegates or offers them, opening with the question or the "not available" notice |
| DialogProperties.OfferOne | lambda_function.py:484-500 | offering one time sets the time slot and asks for confirmation with yes/no buttons |
| DialogProperties.OfferSeveral | lambda_function.py:502-514 | offering several times elicits the time with the sentence and the time buttons |
| DialogProperties.OnlyTimeConfirmed | lambda_function.py:484-500 | exactly one usable time, not delegated, is put in the slot and confirmed |
| DialogProperties.SeveralTimesOffered | lambda_function.py:502-514 | two or more usable times, not delegated, are listed and offered |
| DialogProperties.ConfirmedTimeBookable | lambda_function.py:484-500 | a confirmed time is a grid clock that `is_available` accepts on the day |
| DialogProperties.LookupSettles | lambda_function.py:439-445 | the lookup keeps old days, adds only a new non-empty generated list, and is idempotent |
| DialogProperties.HookStore | lambda_function.py:439-514 | once a time is being chosen the returned store is the looked-up store |
| DialogProperties.DialogStoreOnlyGains | lambda_function.py:388-516 | the dialog hook never changes a stored day and adds at most the asked day's ten-slot list |
| DialogProperties.UnrequestedSession | lambda_function.py:484-514 | without a requested time, the session keeps its rendered time |
| DialogProperties.EarlyRepliesKeepSession | lambda_function.py:389-458 | before a time is being chosen, the session is unchanged |
| DialogProperties.DialogRepeatable | lambda_function.py:388-516 | asking again with the returned session gives the same reply |
| DialogProperties.RepeatEmptyDay | lambda_function.py:460-475 | the backtrack is repeatable with the returned session |
| DialogProperties.RepeatOffer | lambda_function.py:477-514 | delegating, confirming and offering are repeatable with the returned session |
| DialogProperties.DelegatedTimeIsFree | lambda_function.py:477-481 | a delegation happens only for a requested time free for the whole duration |
| DialogProperties.FulfilNeedsAllSlots | lambda_function.py:524-532 | a missing slot at fulfilment closes as failed, session unchanged |
| DialogProperties.FulfilRejectsUnreadable | lambda_function.py:535-552 | a time that does not unpack or a date that does not parse closes as failed, session unchanged |
| DialogProperties.FulfilCommits | lambda_function.py:534-541 | otherwise fulfilment books the padded time under the parsed-date key |
| DialogProperties.CommitFaultIff | lambda_function.py:554-558 | booking raises iff the list is non-empty and lacks the time, or its successor for 60 minutes |
| DialogProperties.FulfilFaultIff | lambda_function.py:534-558 | fulfilment raises iff all checks pass and the day's non-empty list lacks the padded time or its successor |
| DialogProperties.CommitCloses | lambda_function.py:566-575 | a successful booking closes as fulfilled with the booking message; an empty list changes nothing |
| DialogProperties.FulfilCloses | lambda_function.py:566-575 | a successful fulfilment closes as fulfilled with the booking message and keeps the rendered time |
| DialogProperties.CommitStores | lambda_function.py:554-561 | on a non-empty list the store holds the edited list under the key and the date |
| DialogProperties.StoredUnderBoth | lambda_function.py:541-560 | writing one list under two keys changes only those keys |
| DialogProperties.CommitBooks | lambda_function.py:554-561 | the booked times leave the day's multiset; both keys hold the result; no other day changes |
| DialogProperties.FulfilBooks | lambda_function.py:534-561 | fulfilment removes exactly the padded time (and its successor for 60) from the day and changes no other day |
| DialogProperties.OtherSourceDelegates | lambda_function.py:519-521 | any other phase delegates with the slots and session unchanged |
| DialogProperties.WeekdaySlotsInGrid | lambda_function.py:166-170 | every generated start is a grid start |
| DialogProperties.SmallerHasNoNew | lambda_function.py:555-558 | removing times from a list adds none |
| DialogProperties.DialogKeepsGrid | lambda_function.py:388-516 | the dialog hook keeps every stored time on the grid |
| DialogProperties.FulfilKeepsGrid | lambda_function.py:523-575 | fulfilment keeps every stored time on the grid |
| DialogProperties.MakeAppointmentKeepsGrid | lambda_function.py:360-586 | every turn keeps every stored time on the grid |
| DialogProperties.DelegatedTimeStored | lambda_function.py:439-481 | a delegated time is already padded and sits in the stored day list, with its successor for 60 minutes |
| DialogProperties.HookThenFulfil | lambda_function.py:477-575 | a delegated time is booked by the fulfilment that follows |
| DialogProperties.Dispatch | lambda_function.py:384-523 | the dialog phase runs the hook and the fulfilment phase runs fulfilment, both on the normalised date |
| DialogProperties.NormalizedDateIsKey | lambda_function.py:376-379 | with a parser that reads its own output back, the normalised date is its own store key |
| DialogProperties.DelegateThenFulfil | lambda_function.py:360-586 | a delegation then fulfilment with the same slots closes as fulfilled and takes exactly the booked times from the day |

## Left out

- **Date parsing.** `dateutil.parser.parse` and `strptime` are one abstract `parse`
  parameter. The validator tries `strptime` and then `dateutil`, the resolver uses
  `dateutil` only, and the model does not tell them apart. As a result, the validator's
  second parse failure (lambda_function.py:286-288) is unreachable in the model.
- **Clock and time zone.** `datetime.date.today()` is the parameter `today`. The time
  zone set in `lambda_handler` is not modelled.
- **JSON.** The JSON encoding of `bookingMap` is not modelled; the store is a map.
- **Lex plumbing.**
  - The Lex envelopes of `elicit_slot`, `confirm_intent`, `close` and `delegate`
    (lambda_function.py:15-83) become the `Action` datatype.
  - The other session attributes travel unchanged and are not modelled.
- **Slot access.** `get_slot`, `get_slots`, `get_session_attributes` and `try_ex`
  (lambda_function.py:113-140) are dictionary plumbing. Slots are their interpreted
  values. Line 485 writes a bare string into `slots['Time']` where Lex expects a slot
  object; the model simply sets the value.
- **`parse_int`.** Its NaN result is `None`.
- **Not part of this model:** `get_random_int` (unused), `lambda_handler` (logging,
  time zone, rewriting of the final message), and every `logger` and `print` call.
  `lambda_handler`'s `ReadyForFulfillment` branch is unreachable.
- **Unreachable lines.** The closing `delegate` of the dialog hook
  (lambda_function.py:516) and the `InProgress` close (lambda_function.py:576-586) are
  unreachable and not modelled.
- **ASCII only.** `int()`, `str.strip` and `str.lower` are modelled for ASCII input.
  The whitespace `int()` skips is tab to carriage return and the space. Python also
  accepts non-ASCII digits and whitespace and lowers non-ASCII letters.
- Text.ParseInt: reads digit runs of any length. CPython since 3.11 (and patched
  earlier releases) makes `int()` and `str()` raise `ValueError` beyond 4300 digits, so
  a time whose hour part has more than 4300 digits closes as failed at fulfilment
  (lambda_function.py:538, 543) where the model books it. Bounding every text-number
  round trip by a digit count would touch every lemma that writes a year or an hour;
  the model treats integers as unbounded instead.
- **Year formatting.** `%Y` is modelled as `str(year)`, the glibc behaviour, which does
  not zero-pad years before 1000.
- Clock.Increment: requires the "H:M" shape. The source raises on any other string, but
  every caller passes a grid time or an accepted time.
- Availability.IsAvailable: requires the "H:M" shape for 60-minute checks. The dialog
  hook only calls it with an accepted time.
- Clock.TimeOutput: its contract spells out the rendering rather than a property of it.
  The properties are stated by `Clock.TwelveHourRoundTrip` and `Clock.GridShown`.
- **Civil dates.** `Calendar.ToCivil` is defined on all integers. Python dates exist
  only for days 1 to 3652059, and the model does not bound what `parse` returns.

=== FILE: availability.dfy ===
/** The availability side of booking: the day's generated start times, appointment
    durations, the filter that keeps the start times an appointment of a given length can
    use, the single-time check, and the list edit that books a time. */
module Availability {
  import opened Basics
  import opened Text
  import opened Clock
  import opened Calendar

  /** The session's `bookingMap`: a date text to the start times still free that day. */
  type Store = map<string, seq<string>>

  /** Exceptions the booking code lets escape. */
  datatype Fault =
    | UnknownDuration(duration: Option<int>)  // `is_available` with a duration other than 30 or 60
    | NotInList(item: string)                 // `list.remove` of an absent item

  /* ---------------------------------------------------------------------------
     The half-hour grid as characters, and the generated weekday list
     --------------------------------------------------------------------------- */

  /** Grid start k spelled out: "1", the hour's last digit, ':', then "00" or "30". */
  lemma GridChars(k: nat)
    requires k <= 14
    ensures GridTime(k) == ['1', DigitChar(k / 2), ':', if k % 2 == 0 then '0' else '3', '0']
  {
    var n := 10 + k / 2;
    assert NatToString(1) == ['1'];
    assert NatToString(n) == NatToString(1) + [DigitChar(k / 2)];
  }

  /** Grid strings at the given indices. */
  function Times(ix: seq<nat>): (ts: seq<string>)
    requires forall i :: 0 <= i < |ix| ==> ix[i] <= 14
    ensures |ts| == |ix|
    ensures forall i :: 0 <= i < |ix| ==> ts[i] == GridTime(ix[i])
  {
    seq(|ix|, i requires 0 <= i < |ix| => GridTime(ix[i]))
  }

  lemma TimesAppend(ix: seq<nat>, j: nat)
    requires forall i :: 0 <= i < |ix| ==> ix[i] <= 14
    requires j <= 14
    ensures Times(ix + [j]) == Times(ix) + [GridTime(j)]
  {
  }

  /** The ten start times `get_availabilities` lists for a working day. */
  const WeekdaySlots: seq<string> :=
    ["10:00", "10:30", "11:00", "11:30", "14:00", "14:30", "15:00", "15:30", "16:00", "16:30"]

  /** Their positions on the grid: 10:00-11:30 and 14:00-16:30. */
  const WeekdayIndices: seq<nat> := [0, 1, 2, 3, 8, 9, 10, 11, 12, 13]

  /** The weekday list is exactly the grid starts of the morning and afternoon blocks. */
  lemma WeekdaySlotsOnGrid()
    ensures WeekdaySlots == Times(WeekdayIndices)
  {
    var ts := Times(WeekdayIndices);
    forall i | 0 <= i < 10
      ensures WeekdaySlots[i] == ts[i]
    {
      SlotOnGrid(i);
    }
  }

  /** The i-th weekday start, character by character. */
  lemma SlotOnGrid(i: nat)
    requires i < 10
    ensures WeekdaySlots[i] == GridTime(WeekdayIndices[i])
  {
    if i < 4 {
      MorningSlot(i);
    } else {
      AfternoonSlot(i);
    }
  }

  /** `SlotOnGrid` for the morning starts and, below, the afternoon starts. */
  lemma MorningSlot(i: nat)
    requires i < 4
    ensures WeekdaySlots[i] == GridTime(WeekdayIndices[i])
  {
    var k := WeekdayIndices[i];
    GridChars(k);
    assert DigitChar(k / 2) == WeekdaySlots[i][1];
  }

  lemma AfternoonSlot(i: nat)
    requires 4 <= i < 10
    ensures WeekdaySlots[i] == GridTime(WeekdayIndices[i])
  {
    var k := WeekdayIndices[i];
    GridChars(k);
    assert DigitChar(k / 2) == WeekdaySlots[i][1];
  }

  /** A grid time is among the grid strings at some indices exactly when its index is. */
  lemma TimesMember(ix: seq<nat>, k: nat)
    requires forall i :: 0 <= i < |ix| ==> ix[i] <= 14
    requires k <= 14
    ensures GridTime(k) in Times(ix) <==> k in ix
  {
    var ts := Times(ix);
    if GridTime(k) in ts {
      var i :| 0 <= i < |ts| && ts[i] == GridTime(k);
      GridInjective(ix[i], k);
    }
    if k in ix {
      var i :| 0 <= i < |ix| && ix[i] == k;
      assert ts[i] == GridTime(k);
    }
  }

  /** Which grid starts the weekday list contains. */
  lemma WeekdaySlotsMembers(k: nat)
    requires k <= 14
    ensures GridTime(k) in WeekdaySlots <==> k in WeekdayIndices
  {
    var ts := Times(WeekdayIndices);
    TimesMember(WeekdayIndices, k);
    assert GridTime(k) in ts <==> k in WeekdayIndices;
    WeekdaySlotsOnGrid();
  }

  /** `get_availabilities(date)`: the weekday list when the date parses to Monday-Friday,
      and nothing for a weekend or a date that does not parse. */
  function GetAvailabilities(parse: string -> Option<int>, date: string): (r: seq<string>)
    ensures r == WeekdaySlots || r == []
    ensures r == WeekdaySlots <==> parse(date).Some? && IsWorkday(parse(date).value)
  {
    match parse(date)
    case None => []
    case Some(d) => if Weekday(d) < 5 then WeekdaySlots else []
  }

  /** `get_duration`: minutes of each appointment type, case-insensitively; `None` for any
      other type. */
  function Duration(appointmentType: string): (r: Option<int>)
    ensures r.Some? <==> Lower(appointmentType) in {"cleaning", "root canal", "whitening"}
    ensures r == Some(60) <==> Lower(appointmentType) == "root canal"
    ensures r.Some? ==> r.value == 30 || r.value == 60
  {
    var key := Lower(appointmentType);
    if key == "cleaning" then Some(30)
    else if key == "root canal" then Some(60)
    else if key == "whitening" then Some(30)
    else None
  }

  /* ---------------------------------------------------------------------------
     get_availabilities_for_duration and is_available
     --------------------------------------------------------------------------- */

  /** Whether the filter keeps grid start k: it is free and, unless the duration is exactly
      30, so is the half hour after it. */
  predicate Keeps(duration: Option<int>, avail: seq<string>, k: nat)
    requires k < 14
  {
    GridTime(k) in avail && (duration == Some(30) || GridTime(k + 1) in avail)
  }

  /** `Keeps` for each of the fourteen grid starts. */
  function KeepFlags(duration: Option<int>, avail: seq<string>): (f: seq<bool>)
    ensures |f| == 14
    ensures forall k :: 0 <= k < 14 ==> f[k] == Keeps(duration, avail, k)
  {
    seq(14, k requires 0 <= k < 14 => Keeps(duration, avail, k))
  }

  /** The indices below k whose flag is set, ascending. */
  function Marked(f: seq<bool>, k: nat): (ix: seq<nat>)
    requires k <= |f|
    ensures forall i :: 0 <= i < |ix| ==> ix[i] < k && f[ix[i]]
    ensures forall i, j :: 0 <= i < j < |ix| ==> ix[i] < ix[j]
    ensures forall j :: 0 <= j < k && f[j] ==> j in ix
  {
    if k == 0 then []
    else Marked(f, k - 1) + (if f[k - 1] then [k - 1] else [])
  }

  /** The start times `get_availabilities_for_duration` returns. */
  function ForDuration(duration: Option<int>, avail: seq<string>): seq<string> {
    Times(Marked(KeepFlags(duration, avail), 14))
  }

  /** `get_availabilities_for_duration` as the source runs it: walk from "10:00" by
      half hours until "17:00", keeping each free start whose successor is free too
      (for any duration other than 30). */
  method AvailabilitiesForDuration(duration: Option<int>, avail: seq<string>) returns (kept: seq<string>)
    ensures kept == ForDuration(duration, avail)
  {
    GridEnds();
    ghost var flags := KeepFlags(duration, avail);
    kept := [];
    var start := "10:00";
    ghost var k: nat := 0;
    while start != "17:00"
      invariant k <= 14 && start == GridTime(k)
      invariant kept == Times(Marked(flags, k))
      decreases 14 - k
    {
      KeepsNext(duration, avail, k);
      var next := Increment(start);
      assert flags[k] == Keeps(duration, avail, k);
      KeptStep(flags, k);
      if start in avail {
        if duration == Some(30) {
          kept := kept + [start];
        } else if next in avail {
          kept := kept + [start];
        }
      }
      start := next;
      k := k + 1;
    }
    GridInjective(k, 14);
  }

  /** `Keeps` asks about the half hour `Increment` gives. */
  lemma KeepsNext(duration: Option<int>, avail: seq<string>, k: nat)
    requires k < 14
    ensures IsClock(GridTime(k)) && Increment(GridTime(k)) == GridTime(k + 1)
    ensures Keeps(duration, avail, k) == (GridTime(k) in avail && (duration == Some(30) || Increment(GridTime(k)) in avail))
  {
    GridStep(k);
  }

  lemma KeptStep(f: seq<bool>, k: nat)
    requires k < |f| && k < 14
    ensures Times(Marked(f, k + 1)) == Times(Marked(f, k)) + (if f[k] then [GridTime(k)] else [])
  {
    if f[k] {
      TimesAppend(Marked(f, k), k);
    }
  }

  /** The filter returns grid times in ascending order, each of them free, and it keeps grid
      start k exactly when `Keeps` says so; for 30 minutes that is every free grid start, and
      for any other duration every kept start is followed by a free half hour. */
  lemma ForDurationShape(duration: Option<int>, avail: seq<string>)
    ensures var r := ForDuration(duration, avail);
      && (forall i :: 0 <= i < |r| ==> r[i] in Grid() && r[i] in avail)
      && (forall i :: 0 <= i < |r| ==> IsClock(r[i]))
      && (forall i, j :: 0 <= i < j < |r| ==> MinuteOfDay(r[i]) < MinuteOfDay(r[j]))
      && (forall k :: 0 <= k < 14 ==> (GridTime(k) in r <==> Keeps(duration, avail, k)))
      && (duration == Some(30) ==> forall k :: 0 <= k < 14 ==> (GridTime(k) in r <==> GridTime(k) in avail))
      && (duration != Some(30) ==> forall i :: 0 <= i < |r| ==> Increment(r[i]) in avail)
  {
    var ix := Marked(KeepFlags(duration, avail), 14);
    var r := ForDuration(duration, avail);
    forall i | 0 <= i < |r|
      ensures r[i] in Grid() && IsClock(r[i]) && MinuteOfDay(r[i]) == 600 + 30 * ix[i]
      ensures duration != Some(30) ==> Increment(r[i]) in avail
    {
      assert Grid()[ix[i]] == r[i];
      GridClock(ix[i]);
      GridStep(ix[i]);
    }
    forall k | 0 <= k < 14
      ensures GridTime(k) in r <==> Keeps(duration, avail, k)
    {
      TimesMember(ix, k);
    }
  }

  /** `is_available`: for 30 minutes the time is free; for 60 minutes the time and the half
      hour after it are free; any other duration raises. */
  function IsAvailable(time: string, duration: Option<int>, avail: seq<string>): (r: Result<bool, Fault>)
    requires duration == Some(60) ==> IsClock(time)
    ensures r.Success? <==> duration == Some(30) || duration == Some(60)
    ensures r == Success(true) <==>
      && time in avail
      && (duration == Some(30) || (duration == Some(60) && Increment(time) in avail))
  {
    if duration == Some(30) then Success(time in avail)
    else if duration == Some(60) then Success(time in avail && Increment(time) in avail)
    else Failure(UnknownDuration(duration))
  }

  /** On grid times and the two known durations, the single-time check agrees with the
      filter: a time is available exactly when the filter keeps it. */
  lemma AvailableIffKept(k: nat, duration: Option<int>, avail: seq<string>)
    requires k < 14
    requires duration == Some(30) || duration == Some(60)
    ensures IsClock(GridTime(k))
    ensures IsAvailable(GridTime(k), duration, avail) == Success(GridTime(k) in ForDuration(duration, avail))
  {
    GridStep(k);
    ForDurationShape(duration, avail);
  }

  /** Every start time the filter keeps is a grid start that `is_available` accepts. */
  lemma KeptAreAvailable(duration: Option<int>, avail: seq<string>, i: nat)
    requires duration == Some(30) || duration == Some(60)
    requires i < |ForDuration(duration, avail)|
    ensures var t := ForDuration(duration, avail)[i];
      && t in Grid() && IsClock(t)
      && IsAvailable(t, duration, avail) == Success(true)
  {
    var k := Marked(KeepFlags(duration, avail), 14)[i];
    assert Keeps(duration, avail, k);
    assert Grid()[k] == GridTime(k);
    GridStep(k);
  }

  /** On a working day's generated list, 30-minute appointments may start at any of the ten
      times, and 60-minute ones only where the next grid start is listed too, so not at 11:30
      or 16:30. */
  lemma ForDurationOfWeekday(duration: Option<int>, k: nat)
    requires duration == Some(30) || duration == Some(60)
    requires k < 14
    ensures GridTime(k) in ForDuration(duration, WeekdaySlots) <==>
      k in WeekdayIndices && (duration == Some(30) || k + 1 in WeekdayIndices)
  {
    ForDurationShape(duration, WeekdaySlots);
    WeekdaySlotsMembers(k);
    WeekdaySlotsMembers(k + 1);
  }

  /* ---------------------------------------------------------------------------
     list.remove and the fulfilment edit
     --------------------------------------------------------------------------- */

  /** Position of the first occurrence of `x`. */
  function FirstIndex(s: seq<string>, x: string): (i: nat)
    requires x in s
    ensures i < |s| && s[i] == x && x !in s[..i]
  {
    if s[0] == x then 0
    else
      var j := FirstIndex(s[1..], x);
      assert s[1..][..j] == s[1..j + 1];
      j + 1
  }

  /** `s.remove(x)`: the first occurrence goes, everything else keeps its order. */
  function RemoveFirst(s: seq<string>, x: string): (r: seq<string>)
    requires x in s
    ensures |r| == |s| - 1
    ensures multiset(r) == multiset(s) - multiset{x}
    ensures forall y :: y != x ==> (y in r <==> y in s)
    ensures exists i :: 0 <= i < |s| && s[i] == x && x !in s[..i] && r == s[..i] + s[i + 1..]
  {
    var i := FirstIndex(s, x);
    assert s == s[..i] + [x] + s[i + 1..];
    s[..i] + s[i + 1..]
  }

  /** Removing x and then a different y: y is still there exactly when it was, and the two
      leave the multiset together. */
  lemma RemoveTwo(s: seq<string>, x: string, y: string)
    requires x in s && x != y
    ensures y in RemoveFirst(s, x) <==> y in s
    ensures y in s ==> multiset(RemoveFirst(RemoveFirst(s, x), y)) == multiset(s) - multiset{x, y}
  {
  }

  /** The half hour after a clock is a different string. */
  lemma IncrementMoves(t: string)
    requires IsClock(t)
    ensures Increment(t) != t
  {
  }

  /** Fulfilment's list edit: remove the booked start, and for a 60-minute appointment
      the half hour after it; a missing item raises, as `list.remove` does. */
  function Book(avail: seq<string>, time: string, duration: Option<int>): (r: Result<seq<string>, Fault>)
    requires duration == Some(60) ==> IsClock(time)
    ensures r.Failure? <==> time !in avail || (duration == Some(60) && Increment(time) !in avail)
    ensures r.Success? && duration != Some(60) ==>
      multiset(r.value) == multiset(avail) - multiset{time}
    ensures r.Success? && duration == Some(60) ==>
      multiset(r.value) == multiset(avail) - multiset{time, Increment(time)}
    ensures r.Success? && duration != Some(60) ==> r.value == RemoveFirst(avail, time)
    ensures r.Success? && duration == Some(60) ==>
      Increment(time) in RemoveFirst(avail, time) && r.value == RemoveFirst(RemoveFirst(avail, time), Increment(time))
  {
    if time !in avail then Failure(NotInList(time))
    else
      var rest := RemoveFirst(avail, time);
      if duration == Some(60) then
        var next := Increment(time);
        IncrementMoves(time);
        RemoveTwo(avail, time, next);
        if next !in rest then Failure(NotInList(next))
        else Success(RemoveFirst(rest, next))
      else Success(rest)
  }
}

=== FILE: basics.dfy ===
/** Option and Result, the two failure-carrying datatypes the model uses in place of
    Python's `None` and of exceptions that escape a handler. */
module Basics {

  datatype Option<+T> = None | Some(value: T)

  /** `Failure` stands for an exception the source does not catch. */
  datatype Result<+T, +E> = Success(value: T) | Failure(error: E)
}

=== FILE: calendar.dfy ===
/** Calendar dates as Python's `datetime.date` sees them: a proleptic Gregorian day number
    (`date.toordinal()`, so 0001-01-01 is day 1), its weekday, its `strftime('%Y-%m-%d')`
    text, and the run of working days that the date card offers. */
module Calendar {
  import opened Basics
  import opened Text

  /** `date.weekday()`: 0 is Monday and 6 is Sunday; day 1 was a Monday. */
  function Weekday(d: int): (w: int)
    ensures 0 <= w < 7
  {
    (d + 6) % 7
  }

  /** Monday to Friday. */
  predicate IsWorkday(d: int) {
    Weekday(d) < 5
  }

  /** Weekdays advance by one, wrapping from Sunday to Monday. */
  lemma WeekdayNext(d: int)
    ensures Weekday(d + 1) == (Weekday(d) + 1) % 7
  {
  }

  datatype Civil = Civil(year: int, month: int, day: int)

  /** The Gregorian leap rule. */
  predicate IsLeap(y: int) {
    y % 4 == 0 && (y % 100 != 0 || y % 400 == 0)
  }

  /** The length of month `m` of year `y`. */
  function DaysInMonth(y: int, m: int): int {
    if m == 2 then (if IsLeap(y) then 29 else 28)
    else if m == 4 || m == 6 || m == 9 || m == 11 then 30
    else 31
  }

  /** Years and days into a 400-year era that starts on 1 March: whole centuries (the
      last one a day longer), then four-year blocks (the last day of each a leap day),
      then years. */
  datatype EraDay = EraDay(yoe: int, doy: int)

  /** The number of days in an era before year-of-era `yoe` begins. */
  function DaysBeforeYear(yoe: int): int {
    365 * yoe + yoe / 4 - yoe / 100
  }

  /** Day `doe` of an era as a year of the era and a day of that year. */
  function SplitEra(doe: int): (r: EraDay)
    requires 0 <= doe < 146097
    ensures 0 <= r.yoe < 400 && 0 <= r.doy <= 365
    ensures DaysBeforeYear(r.yoe) + r.doy == doe
    ensures r.doy == 365 ==> IsLeap(r.yoe + 1)
  {
    var cent := if doe == 146096 then 3 else doe / 36524;
    var inCent := doe - cent * 36524;
    var quad := inCent / 1461;
    var inQuad := inCent - quad * 1461;
    var year := if inQuad == 1460 then 3 else inQuad / 365;
    var yoe := 100 * cent + 4 * quad + year;
    assert yoe / 4 == 25 * cent + quad;
    assert yoe / 100 == cent;
    EraDay(yoe, inQuad - year * 365)
  }

  /** The month counted from March (0 is March, 11 is February) and the day of the month
      of day `doy` of a year that starts on 1 March. */
  function SplitYear(doy: int): (r: (int, int))
    requires 0 <= doy <= 365
    ensures 0 <= r.0 < 12 && 1 <= r.1 <= 31
    ensures DaysBeforeMonth(r.0) + r.1 - 1 == doy
    ensures doy < DaysBeforeMonth(r.0 + 1)
  {
    var mp := (5 * doy + 2) / 153;
    (mp, doy - DaysBeforeMonth(mp) + 1)
  }

  /** Days from 1 March to the first of the month `mp` months later. */
  function DaysBeforeMonth(mp: int): int {
    (153 * mp + 2) / 5
  }

  /** From March to January, the month `mp` months after March has its calendar length. */
  lemma MonthSpan(mp: int)
    requires 0 <= mp < 11
    ensures DaysBeforeMonth(mp + 1) - DaysBeforeMonth(mp) == DaysInMonth(1, if mp < 10 then mp + 3 else mp - 9)
  {
  }

  /** Day `day` of month `mp` (counted from March) of a year of era `yoe` exists in the
      calendar: the month's span bounds it, and only a leap February reaches day 29. */
  lemma DayFits(era: int, yoe: int, doy: int, mp: int, day: int)
    requires 0 <= mp < 12 && DaysBeforeMonth(mp) + day - 1 == doy && doy < DaysBeforeMonth(mp + 1)
    requires doy <= 365 && (doy == 365 ==> IsLeap(yoe + 1))
    ensures var month := if mp < 10 then mp + 3 else mp - 9;
      day <= DaysInMonth(yoe + era * 400 + (if month <= 2 then 1 else 0), month)
  {
    if mp < 11 {
      MonthSpan(mp);
    } else {
      LeapShift(yoe + 1, era);
      assert yoe + era * 400 + 1 == yoe + 1 + era * 400;
    }
  }

  /** Whole 400-year eras do not change whether a year is leap. */
  lemma LeapShift(y: int, era: int)
    ensures IsLeap(y + era * 400) == IsLeap(y)
  {
    var a, b := era * 100, era * 4;
    assert era * 400 == 4 * a == 100 * b;
    Mod4(y, a);
    Mod100(y, b);
    Mod400(y, era);
  }

  lemma Mod4(y: int, a: int)
    ensures (y + 4 * a) % 4 == y % 4
  {
  }

  lemma Mod100(y: int, b: int)
    ensures (y + 100 * b) % 100 == y % 100
  {
  }

  lemma Mod400(y: int, c: int)
    ensures (y + 400 * c) % 400 == y % 400
  {
  }

  /** Year, month and day of a day number, counting 400-year eras from 0000-03-01. */
  function ToCivil(d: int): (c: Civil)
    ensures 1 <= c.month <= 12 && 1 <= c.day <= DaysInMonth(c.year, c.month)
  {
    var z := d + 305;
    EraDate(z / 146097, SplitEra(z % 146097))
  }

  /** The date of day `e.doy` of year-of-era `e.yoe` in era `era`; January and February
      belong to the next calendar year. */
  function EraDate(era: int, e: EraDay): (c: Civil)
    requires 0 <= e.doy <= 365
    requires e.doy == 365 ==> IsLeap(e.yoe + 1)
    ensures 1 <= c.month <= 12 && 1 <= c.day <= DaysInMonth(c.year, c.month)
  {
    var (mp, day) := SplitYear(e.doy);
    var month := if mp < 10 then mp + 3 else mp - 9;
    DayFits(era, e.yoe, e.doy, mp, day);
    Civil(e.yoe + era * 400 + (if month <= 2 then 1 else 0), month, day)
  }

  /** The day number of a date, the inverse of `ToCivil`. */
  function DaysFromCivil(c: Civil): int {
    var y := if c.month <= 2 then c.year - 1 else c.year;
    var era := y / 400;
    var mp := if c.month > 2 then c.month - 3 else c.month + 9;
    era * 146097 + DaysBeforeYear(y - era * 400) + DaysBeforeMonth(mp) + c.day - 1 - 305
  }

  /** Reading a day number's date back gives the day number. */
  lemma CivilRoundTrip(d: int)
    ensures DaysFromCivil(ToCivil(d)) == d
  {
    var z := d + 305;
    var era, e := z / 146097, SplitEra(z % 146097);
    assert ToCivil(d) == EraDate(era, e);
    EraDateBack(era, e);
  }

  /** The day number of an era date counts the whole eras, the years and the days before it. */
  lemma EraDateBack(era: int, e: EraDay)
    requires 0 <= e.yoe < 400 && 0 <= e.doy <= 365
    requires e.doy == 365 ==> IsLeap(e.yoe + 1)
    ensures DaysFromCivil(EraDate(era, e)) == era * 146097 + DaysBeforeYear(e.yoe) + e.doy - 305
  {
    var c := EraDate(era, e);
    var (mp, day) := SplitYear(e.doy);
    assert (if c.month <= 2 then c.year - 1 else c.year) == e.yoe + era * 400;
    CivilParts(c, era, e.yoe);
    assert (if c.month > 2 then c.month - 3 else c.month + 9) == mp;
  }

  /** A date's day number, given the era and year of era its March-based year falls in. */
  lemma CivilParts(c: Civil, era: int, yoe: int)
    requires 0 <= yoe < 400
    requires (if c.month <= 2 then c.year - 1 else c.year) == yoe + era * 400
    ensures DaysFromCivil(c) == era * 146097 + DaysBeforeYear(yoe)
      + DaysBeforeMonth(if c.month > 2 then c.month - 3 else c.month + 9) + c.day - 1 - 305
  {
    EraOf(yoe, era);
  }

  /** The era of a year given as year-of-era plus whole eras. */
  lemma EraOf(yoe: int, era: int)
    requires 0 <= yoe < 400
    ensures (yoe + era * 400) / 400 == era
  {
  }

  /** Distinct day numbers have distinct dates. */
  lemma CivilInjective(d1: int, d2: int)
    requires ToCivil(d1) == ToCivil(d2)
    ensures d1 == d2
  {
    CivilRoundTrip(d1);
    CivilRoundTrip(d2);
  }

  /** From 0001-01-01 on, the year is at least 1. */
  lemma YearsFromOne(d: int)
    requires d >= 1
    ensures ToCivil(d).year >= 1
  {
    var z := d + 305;
    var era, e := z / 146097, SplitEra(z % 146097);
    assert ToCivil(d) == EraDate(era, e);
    EraDateYear(era, e);
  }

  /** An era date from era 0 on is in year 1 or later unless it falls before 1 January of
      year 1, which is day 306 of year-of-era 0. */
  lemma EraDateYear(era: int, e: EraDay)
    requires 0 <= e.yoe < 400 && 0 <= e.doy <= 365 && (e.doy == 365 ==> IsLeap(e.yoe + 1))
    requires era >= 0 && (era == 0 && e.yoe == 0 ==> e.doy >= 306)
    ensures EraDate(era, e).year >= 1
  {
  }

  /** Day 1 is 0001-01-01, a Monday. */
  lemma FirstDay()
    ensures ToCivil(1) == Civil(1, 1, 1) && Weekday(1) == 0
  {
    assert 306 / 146097 == 0 && 306 / 36524 == 0 && 306 / 1461 == 0 && 306 / 365 == 0;
    assert SplitEra(306) == EraDay(0, 306);
    assert SplitYear(306) == (10, 1);
  }

  /** Day 719163 is the Unix epoch 1970-01-01, a Thursday. */
  lemma EpochDay()
    ensures ToCivil(719163) == Civil(1970, 1, 1) && Weekday(719163) == 3
  {
    assert 719468 / 146097 == 4;
    assert SplitEra(135080) == EraDay(369, 306);
    assert SplitYear(306) == (10, 1);
  }

  /** Day 739899 is 2026-10-10, a Saturday. */
  lemma SampleSaturday()
    ensures ToCivil(739899) == Civil(2026, 10, 10) && Weekday(739899) == 5
  {
    assert 740204 / 146097 == 5;
    assert SplitEra(9719) == EraDay(26, 223);
    assert SplitYear(223) == (7, 10);
  }

  /** `strftime('%Y-%m-%d')`: the year as `str` writes it, month and day zero-padded. */
  function FormatIso(d: int): string {
    IsoText(ToCivil(d))
  }

  /** Reading `year-month-day` back: three integers separated by '-'. */
  function ReadCivil(s: string): Option<Civil> {
    var p := Split(s, '-');
    if |p| == 3 && ParseInt(p[0]).Some? && ParseInt(p[1]).Some? && ParseInt(p[2]).Some? then
      Some(Civil(ParseInt(p[0]).value, ParseInt(p[1]).value, ParseInt(p[2]).value))
    else
      None
  }

  /** The day number of a `year-month-day` text. */
  function ReadIso(s: string): Option<int> {
    match ReadCivil(s)
    case None => None
    case Some(c) => Some(DaysFromCivil(c))
  }

  /** From 0001-01-01 on, the `%Y-%m-%d` text splits into the three numbers of the date
      and reads back as the same day, so distinct days get distinct texts. */
  lemma IsoRoundTrip(d: int)
    requires d >= 1
    ensures var c := ToCivil(d);
      Split(FormatIso(d), '-') == [IntToString(c.year), Pad2(c.month), Pad2(c.day)]
    ensures ReadIso(FormatIso(d)) == Some(d)
  {
    var c := ToCivil(d);
    YearsFromOne(d);
    assert FormatIso(d) == IsoText(c);
    IsoTextReads(c);
    CivilRoundTrip(d);
  }

  /** The `%Y-%m-%d` text of a year, month and day. */
  function IsoText(c: Civil): string {
    IntToString(c.year) + "-" + (Pad2(c.month) + "-" + Pad2(c.day))
  }

  /** A text written from non-negative numbers splits back into them and reads as the
      same date. */
  lemma IsoTextReads(c: Civil)
    requires c.year >= 0 && c.month >= 0 && c.day >= 0
    ensures Split(IsoText(c), '-') == [IntToString(c.year), Pad2(c.month), Pad2(c.day)]
    ensures ReadCivil(IsoText(c)) == Some(c)
  {
    var y, m, dd := IntToString(c.year), Pad2(c.month), Pad2(c.day);
    assert y == NatToString(c.year);
    SplitTriple(y, m, dd, '-');
    IntToStringParses(c.year);
    Pad2Parses(c.month);
    Pad2Parses(c.day);
  }

  /** Distinct days from 0001-01-01 on have distinct `%Y-%m-%d` texts. */
  lemma IsoInjective(d1: int, d2: int)
    requires d1 >= 1 && d2 >= 1 && FormatIso(d1) == FormatIso(d2)
    ensures d1 == d2
  {
    IsoRoundTrip(d1);
    IsoRoundTrip(d2);
  }

  const DayNames: seq<string> := ["Mon", "Tue", "Wed", "Thu", "Fri", "Sat", "Sun"]

  /** The label of a date button: month and day unpadded, then the weekday's short name. */
  function DateLabel(d: int): string {
    var c := ToCivil(d);
    IntToString(c.month) + "-" + IntToString(c.day) + " (" + DayNames[Weekday(d)] + ")"
  }

  /** The label reads as the date's month, then its day and its own weekday's name. */
  lemma DateLabelReads(d: int)
    ensures var c := ToCivil(d);
      var parts := Split(DateLabel(d), '-');
      && parts == [IntToString(c.month), IntToString(c.day) + " (" + DayNames[Weekday(d)] + ")"]
      && ParseInt(parts[0]) == Some(c.month)
  {
    var c := ToCivil(d);
    var rest := IntToString(c.day) + " (" + DayNames[Weekday(d)] + ")";
    assert forall i :: 0 <= i < 7 ==> '-' !in DayNames[i];
    assert '-' !in rest;
    assert DateLabel(d) == IntToString(c.month) + ['-'] + rest;
    SplitPair(IntToString(c.month), rest, '-');
    IntToStringParses(c.month);
  }

  /** How many weekend days still lie between `from` and the next working day. */
  function WeekendAhead(from: int): nat {
    if Weekday(from + 1) == 5 then 2 else if Weekday(from + 1) == 6 then 1 else 0
  }

  /** The first `n` working days after `from`, as the loop of `build_options('Date')` steps
      one day at a time and keeps Monday to Friday: all of them after `from`, ascending,
      and none skipped. */
  function WorkdaysAfter(from: int, n: nat): (r: seq<int>)
    ensures |r| == n
    ensures forall i :: 0 <= i < n ==> from < r[i] && IsWorkday(r[i])
    ensures forall i, j :: 0 <= i < j < n ==> r[i] < r[j]
    ensures n > 0 ==> forall d :: from < d <= r[n - 1] && IsWorkday(d) ==> d in r
    decreases n, WeekendAhead(from)
  {
    if n == 0 then
      []
    else if IsWorkday(from + 1) then
      [from + 1] + WorkdaysAfter(from + 1, n - 1)
    else
      WeekdayNext(from + 1);
      WorkdaysAfter(from + 1, n)
  }
}

=== FILE: clock.dfy ===
/** Times of day as the booking code handles them: "H:M" strings that are split on ':'
    and read with `int()`, the half-hour increment, the 10:00-17:00 grid that the
    availability filter walks, and the 12-hour rendering shown to the user. */
module Clock {
  import opened Basics
  import opened Text

  /** A string that `hour, minute = map(int, t.split(':'))` unpacks without raising. */
  predicate IsClock(t: string) {
    var p := Split(t, ':');
    |p| == 2 && ParseInt(p[0]).Some? && ParseInt(p[1]).Some?
  }

  function Hour(t: string): int
    requires IsClock(t)
  {
    ParseInt(Split(t, ':')[0]).value
  }

  function Minute(t: string): int
    requires IsClock(t)
  {
    ParseInt(Split(t, ':')[1]).value
  }

  /** Minutes after midnight; the order in which times are compared. */
  function MinuteOfDay(t: string): int
    requires IsClock(t)
  {
    Hour(t) * 60 + Minute(t)
  }

  /** Joining two integer texts with ':' gives a clock that reads back as those two integers. */
  lemma ClockOf(a: string, b: string)
    requires ':' !in a && ':' !in b
    requires ParseInt(a).Some? && ParseInt(b).Some?
    ensures Split(a + ":" + b, ':') == [a, b]
    ensures IsClock(a + ":" + b)
    ensures Hour(a + ":" + b) == ParseInt(a).value
    ensures Minute(a + ":" + b) == ParseInt(b).value
  {
    SplitPair(a, b, ':');
  }

  lemma ZeroText()
    ensures Pad2(0) == "00" && ParseInt("00") == Some(0)
  {
    PadZero();
    Pad2Parses(0);
  }

  lemma PadZero()
    ensures Pad2(0) == "00"
  {
    assert NatToString(0) == [DigitChar(0)] == "0";
  }

  lemma ThirtyText()
    ensures IntToString(30) == "30" && Pad2(30) == "30" && ParseInt("30") == Some(30)
  {
    WriteThirty();
    IntToStringParses(30);
  }

  lemma WriteThirty()
    ensures IntToString(30) == "30"
  {
    var three := NatToString(3);
    assert three == [DigitChar(3)] == "3";
    assert NatToString(30) == three + [DigitChar(0)];
    assert [DigitChar(0)] == "0";
  }

  /** The two minute texts the source writes literally. */
  lemma MinuteTexts()
    ensures ParseInt("00") == Some(0)
    ensures ParseInt("30") == Some(30)
    ensures IntToString(30) == "30"
    ensures Pad2(0) == "00" && Pad2(30) == "30"
  {
    ZeroText();
    ThirtyText();
  }

  /** `increment_time_by_thirty_mins`: H:30 becomes (H+1):00 and any other minute gives H:30;
      the hour is written by `str`, so it is not zero-padded. */
  function Increment(t: string): (r: string)
    requires IsClock(t)
    ensures IsClock(r)
    ensures Minute(t) == 30 ==> Hour(r) == Hour(t) + 1 && Minute(r) == 0
    ensures Minute(t) != 30 ==> Hour(r) == Hour(t) && Minute(r) == 30
    ensures Minute(t) == 0 || Minute(t) == 30 ==> MinuteOfDay(r) == MinuteOfDay(t) + 30
    ensures Split(r, ':')[0] == IntToString(Hour(r))
    ensures Split(r, ':')[1] == (if Minute(t) == 30 then "00" else "30")
  {
    MinuteTexts();
    var h := Hour(t);
    if Minute(t) == 30 then
      var hText := IntToString(h + 1);
      IntToStringParses(h + 1);
      ClockOf(hText, "00");
      hText + ":" + "00"
    else
      var hText := IntToString(h);
      IntToStringParses(h);
      ClockOf(hText, "30");
      hText + ":" + "30"
  }

  /* ---------------------------------------------------------------------------
     The grid 10:00, 10:30, ..., 16:30 and its end mark 17:00
     --------------------------------------------------------------------------- */

  /** The minute part of grid start k: "00" on the hour, "30" on the half hour. */
  function MinuteText(k: nat): string {
    if k % 2 == 0 then "00" else "30"
  }

  lemma MinuteTextValue(k: nat)
    ensures ParseInt(MinuteText(k)) == Some(30 * (k % 2))
    ensures ':' !in MinuteText(k)
  {
    var m := 30 * (k % 2);
    if k % 2 == 0 {
      PadZero();
    } else {
      WriteThirty();
    }
    assert MinuteText(k) == Pad2(m);
    Pad2Parses(m);
  }

  /** Grid start k is 10:00 plus 30k minutes, written the way `Increment` writes it.
      GridTime(14) is the loop's end mark "17:00". */
  function GridTime(k: nat): string
    requires k <= 14
  {
    IntToString(10 + k / 2) + ":" + MinuteText(k)
  }

  /** Every grid time is a clock whose hour and minute come from its index. */
  lemma GridClock(k: nat)
    requires k <= 14
    ensures IsClock(GridTime(k))
    ensures Hour(GridTime(k)) == 10 + k / 2
    ensures Minute(GridTime(k)) == 30 * (k % 2)
    ensures MinuteOfDay(GridTime(k)) == 600 + 30 * k
    ensures Split(GridTime(k), ':')[0] == IntToString(10 + k / 2)
  {
    MinuteTextValue(k);
    IntToStringParses(10 + k / 2);
    ClockOf(IntToString(10 + k / 2), MinuteText(k));
  }

  /** Incrementing grid start k gives grid start k + 1. */
  lemma GridStep(k: nat)
    requires k < 14
    ensures IsClock(GridTime(k))
    ensures Increment(GridTime(k)) == GridTime(k + 1)
  {
    GridClock(k);
    if k % 2 == 0 {
      GridStepOnHour(k);
    } else {
      GridStepOnHalf(k);
    }
  }

  lemma GridStepOnHour(k: nat)
    requires k < 14 && k % 2 == 0
    ensures IsClock(GridTime(k))
    ensures Increment(GridTime(k)) == GridTime(k + 1)
  {
    GridClock(k);
    var h := 10 + k / 2;
    IncrementWrites(GridTime(k), h, "30");
    GridWrites(k + 1, h, "30");
  }

  lemma GridStepOnHalf(k: nat)
    requires k < 14 && k % 2 == 1
    ensures IsClock(GridTime(k))
    ensures Increment(GridTime(k)) == GridTime(k + 1)
  {
    GridClock(k);
    var h := 10 + k / 2 + 1;
    IncrementWrites(GridTime(k), h, "00");
    GridWrites(k + 1, h, "00");
  }

  /** The text `Increment` builds, for a known hour. */
  lemma IncrementWrites(t: string, h: int, m: string)
    requires IsClock(t)
    requires m == (if Minute(t) == 30 then "00" else "30")
    requires h == (if Minute(t) == 30 then Hour(t) + 1 else Hour(t))
    ensures Increment(t) == IntToString(h) + ":" + m
  {
  }

  /** The text of grid start k, for a known hour and minute text. */
  lemma GridWrites(k: nat, h: int, m: string)
    requires k <= 14 && h == 10 + k / 2
    requires m == (if k % 2 == 0 then "00" else "30")
    ensures GridTime(k) == IntToString(h) + ":" + m
  {
  }

  /** Distinct indices give distinct grid strings. */
  lemma GridInjective(i: nat, j: nat)
    requires i <= 14 && j <= 14
    requires GridTime(i) == GridTime(j)
    ensures i == j
  {
    GridClock(i);
    GridClock(j);
  }

  /** The literal start and end of the loop in `get_availabilities_for_duration`. */
  lemma GridEnds()
    ensures GridTime(0) == "10:00"
    ensures GridTime(14) == "17:00"
  {
    assert DigitChar(0) == '0' && DigitChar(1) == '1' && DigitChar(7) == '7';
    assert NatToString(10) == NatToString(1) + [DigitChar(0)];
    assert NatToString(17) == NatToString(1) + [DigitChar(7)];
    assert IntToString(10) == "10" && IntToString(17) == "17";
  }

  /** The fourteen grid start times, ascending. */
  function Grid(): (g: seq<string>)
    ensures |g| == 14
    ensures forall k :: 0 <= k < 14 ==> g[k] == GridTime(k)
  {
    seq(14, k requires 0 <= k < 14 => GridTime(k))
  }

  /** A string on the grid, with its index. */
  lemma OnGrid(t: string) returns (k: nat)
    requires t in Grid()
    ensures k < 14 && t == GridTime(k)
    ensures IsClock(t) && MinuteOfDay(t) == 600 + 30 * k
  {
    var i :| 0 <= i < 14 && Grid()[i] == t;
    k := i;
    GridClock(k);
  }

  /* ---------------------------------------------------------------------------
     Canonical "HH:MM" and 12-hour rendering
     --------------------------------------------------------------------------- */

  /** `f"{int(hour):02d}:{int(minute):02d}"`: the same clock value, both parts padded. */
  function Canonical(t: string): (r: string)
    requires IsClock(t)
    ensures IsClock(r) && Hour(r) == Hour(t) && Minute(r) == Minute(t)
    ensures Split(r, ':') == [Pad2(Hour(t)), Pad2(Minute(t))]
  {
    var hText := Pad2(Hour(t));
    var mText := Pad2(Minute(t));
    Pad2Parses(Hour(t));
    Pad2Parses(Minute(t));
    ClockOf(hText, mText);
    hText + ":" + mText
  }

  /** Grid strings are already canonical, so padding them changes nothing. */
  lemma CanonicalGrid(k: nat)
    requires k < 14
    ensures IsClock(GridTime(k))
    ensures Canonical(GridTime(k)) == GridTime(k)
  {
    GridClock(k);
    var h := 10 + k / 2;
    var t := GridTime(k);
    assert Pad2(h) == IntToString(h);
    GridMinutePadded(k);
    CanonicalWrites(t, IntToString(h), MinuteText(k));
  }

  /** The minute text of grid start k is its minute, padded. */
  lemma GridMinutePadded(k: nat)
    ensures Pad2(30 * (k % 2)) == MinuteText(k)
  {
    if k % 2 == 0 {
      ZeroText();
    } else {
      ThirtyText();
    }
  }

  /** The text `Canonical` builds, for known padded parts. */
  lemma CanonicalWrites(t: string, hText: string, mText: string)
    requires IsClock(t) && hText == Pad2(Hour(t)) && mText == Pad2(Minute(t))
    ensures Canonical(t) == hText + ":" + mText
  {
  }

  /** A string whose part before ':' is an integer, as `build_time_output_string` needs. */
  predicate HasHour(t: string) {
    var p := Split(t, ':');
    |p| == 2 && ParseInt(p[0]).Some?
  }

  /** The hour shown on a 12-hour clock face. */
  function ShownHour(h: int): int {
    if h > 12 then h - 12 else if h == 0 then 12 else h
  }

  /** Reading a 12-hour clock back: 12 a.m. is hour 0 and 12 p.m. is hour 12. */
  function FromTwelveHour(shown: int, pm: bool): int {
    (if shown == 12 then 0 else shown) + (if pm then 12 else 0)
  }

  /** On the hours 0..23 the shown hour is in 1..12 and, with the a.m./p.m. suffix,
      identifies the hour. */
  lemma TwelveHourRoundTrip(h: int)
    requires 0 <= h < 24
    ensures 1 <= ShownHour(h) <= 12
    ensures FromTwelveHour(ShownHour(h), h >= 12) == h
  {
  }

  /** `build_time_output_string`: the 12-hour hour, the minute text zero-filled to two
      characters, then " p.m." from noon on and " a.m." before. */
  function TimeOutput(t: string): (r: string)
    requires HasHour(t)
    ensures var h := ParseInt(Split(t, ':')[0]).value;
      r == IntToString(ShownHour(h)) + ":" + ZFill2(Split(t, ':')[1]) + (if h >= 12 then " p.m." else " a.m.")
  {
    var p := Split(t, ':');
    var h := ParseInt(p[0]).value;
    var m := ZFill2(p[1]);
    Twelve();
    if h > 12 then IntToString(h - 12) + ":" + m + " p.m."
    else if h == 12 then "12" + ":" + m + " p.m."
    else if h == 0 then "12" + ":" + m + " a.m."
    else IntToString(h) + ":" + m + " a.m."
  }

  /** On the grid, 10:00-11:30 are shown as a.m. times and 12:00-16:30 as p.m. times with
      the hour on a 12-hour face; the minute text is kept. */
  lemma GridShown(k: nat)
    requires k < 14
    ensures HasHour(GridTime(k))
    ensures TimeOutput(GridTime(k)) ==
      IntToString(ShownHour(10 + k / 2)) + ":" + MinuteText(k) + (if k >= 4 then " p.m." else " a.m.")
  {
    var h := 10 + k / 2;
    MinuteTextValue(k);
    IntToStringParses(h);
    Shown(IntToString(h), MinuteText(k), h);
  }

  /** The rendering of an hour text and a two-character minute text. */
  lemma Shown(hText: string, m: string, h: int)
    requires ':' !in hText && ':' !in m && |m| == 2 && ParseInt(hText) == Some(h)
    ensures HasHour(hText + ":" + m)
    ensures TimeOutput(hText + ":" + m) == IntToString(ShownHour(h)) + ":" + m + (if h >= 12 then " p.m." else " a.m.")
  {
    SplitPair(hText, m, ':');
    assert hText + ":" + m == hText + [':'] + m;
  }

  lemma Twelve()
    ensures IntToString(12) == "12"
  {
    assert DigitChar(1) == '1' && DigitChar(2) == '2';
    assert NatToString(12) == NatToString(1) + [DigitChar(2)];
  }
}

=== FILE: dialog.dfy ===
/** `make_appointment`: given the phase, the slots and the session's availability store,
    choose one dialog action (elicit a slot, confirm, delegate or close) and the session
    that goes back with it. */
module Dialog {
  import opened Basics
  import opened Text
  import opened Clock
  import opened Calendar
  import opened Availability
  import opened Intent
  import opened Validation
  import opened Responses

  /** The session attributes the resolver reads and writes: the decoded `bookingMap` and
      the rendered requested time. */
  datatype Session = Session(store: Store, formattedTime: Option<string>)

  datatype FulfillmentState = Fulfilled | Failed

  /** The four replies the bot can give. */
  datatype Action =
    | ElicitSlot(slots: Slots, slotToElicit: SlotName, message: string, card: Card)
    | ConfirmIntent(slots: Slots, message: string, card: Card)
    | Delegate(slots: Slots)
    | Close(state: FulfillmentState, message: string)

  datatype Reply = Reply(action: Action, session: Session)

  datatype Request = Request(source: Source, slots: Slots, session: Session)

  const AskTypeMessage := "What type of appointment would you like to schedule?"
  const DateTroubleMessage := "I had trouble understanding that date. Please provide a date in YYYY-MM-DD format."
  const NoAvailabilityMessage := "We do not have any availability on that date, is there another day which works for you?"
  const UnavailableMessage := "The time you requested is not available. "
  const MissingInfoMessage := "Please provide all required information: appointment type, date, and time."
  const BookingErrorMessage := "I encountered an error while trying to book your appointment. Please try again with a valid date and time."

  function AskDateMessage(appointmentType: string): string {
    "When would you like to schedule your " + appointmentType + "?"
  }

  function AskTimeMessage(date: string): string {
    "What time on " + date + " works for you? "
  }

  function BookedMessage(appointmentType: string, time: string, date: string): string
    requires HasHour(time)
  {
    "Okay, I have booked your " + Lower(appointmentType) + " appointment. We will see you at "
      + TimeOutput(time) + " on " + date
  }

  const YesNo: seq<Button> := [Button("yes", "yes"), Button("no", "no")]

  /** The date slot as the resolver uses it: rewritten to `%Y-%m-%d` when it parses, kept
      as given otherwise. */
  function NormalizeDate(date: Option<string>, parse: string -> Option<int>): (r: Option<string>)
    ensures Filled(r) <==> Filled(date)
    ensures Filled(date) && parse(date.value).Some? ==> r == Some(FormatIso(parse(date.value).value))
    ensures !Filled(date) || parse(date.value).None? ==> r == date
  {
    if Filled(date) && parse(date.value).Some? then Some(FormatIso(parse(date.value).value)) else date
  }

  /** The store key of a date: its `%Y-%m-%d` text. */
  function DayKey(date: string, parse: string -> Option<int>): string
    requires parse(date).Some?
  {
    FormatIso(parse(date).value)
  }

  /** The day's start times: the stored list when the key is present (even if empty),
      otherwise a freshly generated one. */
  function DayList(store: Store, date: string, parse: string -> Option<int>): seq<string>
    requires parse(date).Some?
  {
    var key := DayKey(date, parse);
    if key in store then store[key] else GetAvailabilities(parse, date)
  }

  /** The store after looking the day up: a generated list is kept only when non-empty. */
  function StoreAfterLookup(store: Store, date: string, parse: string -> Option<int>): Store
    requires parse(date).Some?
  {
    var key := DayKey(date, parse);
    var avail := DayList(store, date, parse);
    if key !in store && |avail| > 0 then store[key := avail] else store
  }

  /** Whether the dialog has got as far as choosing a time: the slots are valid, type and
      date are given, and the date parses. */
  predicate ChoosingTime(slots: Slots, date: Option<string>, parse: string -> Option<int>, today: int) {
    && Validate(slots, parse, today).Valid?
    && Filled(slots.appointmentType)
    && Filled(date)
    && parse(date.value).Some?
  }

  /** The start times that suit the appointment on the chosen day. */
  function Usable(slots: Slots, date: Option<string>, session: Session, parse: string -> Option<int>, today: int): seq<string>
    requires ChoosingTime(slots, date, parse, today)
  {
    ForDuration(Duration(slots.appointmentType.value), DayList(session.store, date.value, parse))
  }

  /** The DialogCodeHook branch (lines 388-516). */
  function DialogHook(slots: Slots, date: Option<string>, session: Session,
                      parse: string -> Option<int>, today: int): (r: Result<Reply, Fault>)
    ensures r.Success? ==> !r.value.action.Close?
  {
    var verdict := Validate(slots, parse, today);
    if verdict.Invalid? then
      var options := BuildOptions(verdict.slot, slots.appointmentType, date, session.store, today);
      var card := ResponseCard("Specify " + SlotKey(verdict.slot), verdict.message, options);
      Success(Reply(ElicitSlot(slots.Clear(verdict.slot), verdict.slot, verdict.message, card), session))
    else if !Filled(slots.appointmentType) then
      var card := ResponseCard("Specify Appointment Type", AskTypeMessage, Some(TypeOptions));
      Success(Reply(ElicitSlot(slots, AppointmentType, AskTypeMessage, card), session))
    else if !Filled(date) then
      var ask := AskDateMessage(slots.appointmentType.value);
      var card := ResponseCard("Specify Date", ask, Some(DateOptions(today)));
      Success(Reply(ElicitSlot(slots, Date, ask, card), session))
    else if parse(date.value).None? then
      Success(Reply(ElicitSlot(slots, Date, DateTroubleMessage, Bare(DateOptions(today))), session))
    else
      ScheduleOnDate(slots, date.value, session, parse, today)
  }

  /** Lines 430-514: look the day up, then backtrack, delegate, confirm or offer times. */
  function ScheduleOnDate(slots: Slots, date: string, session: Session,
                          parse: string -> Option<int>, today: int): (r: Result<Reply, Fault>)
    requires ChoosingTime(slots, Some(date), parse, today)
    ensures r.Success? ==> !r.value.action.Close?
  {
    var avail := DayList(session.store, date, parse);
    var current := session.(store := StoreAfterLookup(session.store, date, parse));
    var duration := Duration(slots.appointmentType.value);
    var usable := ForDuration(duration, avail);
    UsableRenderable(duration, avail);
    if |usable| == 0 then
      var card := ResponseCard("Specify Date", "What day works best for you?", Some(DateOptions(today)));
      Success(Reply(ElicitSlot(slots.Clear(Date).Clear(Time), Date, NoAvailabilityMessage, card), current))
    else if Filled(slots.time) then
      var time := slots.time.value;
      var noted := current.(formattedTime := Some(TimeOutput(time)));
      match IsAvailable(time, duration, avail)
      case Failure(f) => Failure(f)
      case Success(free) =>
        if free then Success(Reply(Delegate(slots), noted))
        else Success(Reply(OfferTimes(slots, date, usable, UnavailableMessage, current.store), noted))
    else
      Success(Reply(OfferTimes(slots, date, usable, AskTimeMessage(date), current.store), current))
  }

  /** Lines 484-514: confirm the only usable time, or list the usable times; `store` is
      the store the time buttons are drawn from. */
  function OfferTimes(slots: Slots, date: string, usable: seq<string>, opening: string, store: Store): (a: Action)
    requires |usable| >= 1 && Renderable(usable)
    ensures a.ConfirmIntent? <==> |usable| == 1
    ensures a.ElicitSlot? <==> |usable| >= 2
  {
    if |usable| == 1 then
      var shown := TimeOutput(usable[0]);
      var card := ResponseCard("Confirm Appointment", "Is " + shown + " on " + date + " okay?", Some(YesNo));
      var message := opening + shown + " is our only availability, does that work for you?";
      ConfirmIntent(slots.(time := Some(usable[0])), message, card)
    else
      var options := TimeOptions(slots.appointmentType, Some(date), store);
      var card := ResponseCard("Specify Time", "What time works best for you?", options);
      RenderablePrefix(usable, Min(3, |usable|));
      ElicitSlot(slots, Time, opening + AvailableTimeString(usable), card)
  }

  lemma RenderablePrefix(a: seq<string>, n: nat)
    requires n <= |a| && Renderable(a)
    ensures Renderable(a[..n])
  {
  }

  lemma UsableRenderable(duration: Option<int>, avail: seq<string>)
    ensures Renderable(ForDuration(duration, avail))
  {
    ForDurationShape(duration, avail);
    ClocksRenderable(ForDuration(duration, avail));
  }

  /** `booking_map.get(key, [])`. */
  function Entry(store: Store, key: string): seq<string> {
    if key in store then store[key] else []
  }

  /** The FulfillmentCodeHook branch (lines 523-575): refuse incomplete or unreadable
      requests, then book the padded time on the parsed day. */
  function Fulfil(slots: Slots, date: Option<string>, session: Session,
                  parse: string -> Option<int>): (r: Result<Reply, Fault>)
    ensures r.Success? ==> r.value.action.Close?
  {
    if !Filled(slots.appointmentType) || !Filled(date) || !Filled(slots.time) then
      Success(Reply(Close(Failed, MissingInfoMessage), session))
    else if !IsClock(slots.time.value) || parse(date.value).None? then
      Success(Reply(Close(Failed, BookingErrorMessage), session))
    else
      Commit(slots.appointmentType.value, Canonical(slots.time.value), DayKey(date.value, parse), date.value, session)
  }

  /** Lines 554-575: remove the time, and the half hour after it for a 60-minute
      appointment, from the list under `key`, store what is left under both `key` and the
      normalised date text, and close as fulfilled; an absent or empty list books nothing. */
  function Commit(appointmentType: string, time: string, key: string, date: string, session: Session): (r: Result<Reply, Fault>)
    requires IsClock(time)
    ensures r.Success? ==> r.value.action == Close(Fulfilled, BookedMessage(appointmentType, time, date))
  {
    var avail := Entry(session.store, key);
    var done := BookedMessage(appointmentType, time, date);
    if |avail| == 0 then
      Success(Reply(Close(Fulfilled, done), session))
    else
      match Book(avail, time, Duration(appointmentType))
      case Failure(f) => Failure(f)
      case Success(rest) =>
        Success(Reply(Close(Fulfilled, done), session.(store := session.store[key := rest][date := rest])))
  }

  /** `make_appointment`: normalise the date, then dispatch on the invocation source. */
  function MakeAppointment(request: Request, parse: string -> Option<int>, today: int): (r: Result<Reply, Fault>)
    ensures r.Success? && r.value.action.Close? ==> request.source == FulfillmentCodeHook
    ensures request.source == FulfillmentCodeHook && r.Success? ==> r.value.action.Close?
  {
    var date := NormalizeDate(request.slots.date, parse);
    match request.source
    case DialogCodeHook => DialogHook(request.slots, date, request.session, parse, today)
    case FulfillmentCodeHook => Fulfil(request.slots, date, request.session, parse)
    case OtherSource => Success(Reply(Delegate(request.slots), request.session))
  }
}

=== FILE: dialog_properties.dfy ===
/** What `make_appointment` promises across its branches: which slot the dialog asks for
    next, when it delegates, confirms or backtracks, that it never loses availability it
    already knows, and that booking after a delegated time removes exactly that time. */
module DialogProperties {
  import opened Basics
  import opened Text
  import opened Clock
  import opened Calendar
  import opened Availability
  import opened Intent
  import opened Validation
  import opened Responses
  import opened Dialog

  /* ---------------------------------------------------------------------------
     Dialog code hook
     --------------------------------------------------------------------------- */

  /** A failed check clears exactly the offending slot, asks for it again with the check's
      own message and that slot's options, and leaves the session as it was. */
  lemma InvalidSlotReElicited(slots: Slots, date: Option<string>, session: Session,
                              parse: string -> Option<int>, today: int)
    requires Validate(slots, parse, today).Invalid?
    ensures var v := Validate(slots, parse, today);
      var r := DialogHook(slots, date, session, parse, today);
      && r.Success? && r.value.session == session
      && r.value.action.ElicitSlot?
      && r.value.action.slotToElicit == v.slot
      && r.value.action.message == v.message
      && r.value.action.slots.Get(v.slot).None?
      && (forall m :: m != v.slot ==> r.value.action.slots.Get(m) == slots.Get(m))
      && r.value.action.card == ResponseCard("Specify " + SlotKey(v.slot), v.message,
           BuildOptions(v.slot, slots.appointmentType, date, session.store, today))
  {
  }

  /** With valid slots and no appointment type, the type is asked for first, with the
      three type buttons. */
  lemma MissingTypeAsked(slots: Slots, date: Option<string>, session: Session,
                         parse: string -> Option<int>, today: int)
    requires Validate(slots, parse, today).Valid? && !Filled(slots.appointmentType)
    ensures DialogHook(slots, date, session, parse, today) ==
      Success(Reply(ElicitSlot(slots, AppointmentType, AskTypeMessage,
        Generic("Specify Appointment Type", AskTypeMessage, Some(TypeOptions))), session))
  {
  }

  /** With a valid type and no date, the date is asked for, naming the type, with the next
      five working days as buttons. */
  lemma MissingDateAsked(slots: Slots, date: Option<string>, session: Session,
                         parse: string -> Option<int>, today: int)
    requires Validate(slots, parse, today).Valid? && Filled(slots.appointmentType) && !Filled(date)
    ensures var r := DialogHook(slots, date, session, parse, today);
      && r.Success? && r.value.session == session
      && r.value.action == ElicitSlot(slots, Date, AskDateMessage(slots.appointmentType.value),
           Generic("Specify Date", AskDateMessage(slots.appointmentType.value), Some(DateOptions(today))))
  {
  }

  /** A date the parser cannot read is asked for again in `YYYY-MM-DD` form. */
  lemma UnreadableDateAsked(slots: Slots, date: Option<string>, session: Session,
                            parse: string -> Option<int>, today: int)
    requires Validate(slots, parse, today).Valid? && Filled(slots.appointmentType)
    requires Filled(date) && parse(date.value).None?
    ensures DialogHook(slots, date, session, parse, today) ==
      Success(Reply(ElicitSlot(slots, Date, DateTroubleMessage, Bare(DateOptions(today))), session))
  {
  }

  /** Once the slots are valid and the date parses, the hook works on that date. */
  lemma ReachesSchedule(slots: Slots, date: Option<string>, session: Session,
                        parse: string -> Option<int>, today: int)
    requires ChoosingTime(slots, date, parse, today)
    ensures DialogHook(slots, date, session, parse, today) ==
      ScheduleOnDate(slots, date.value, session, parse, today)
  {
  }

  /** The opening of the time question: a plain question, or the notice that the
      requested time is taken. */
  function Opening(slots: Slots, date: string): string {
    if Filled(slots.time) then UnavailableMessage else AskTimeMessage(date)
  }

  /** The dialog hook never fails: a valid type has a known duration, so the availability
      check always answers. */
  lemma DialogNeverFails(slots: Slots, date: Option<string>, session: Session,
                         parse: string -> Option<int>, today: int)
    ensures DialogHook(slots, date, session, parse, today).Success?
  {
    if ChoosingTime(slots, date, parse, today) {
      ReachesSchedule(slots, date, session, parse, today);
    }
  }

  /** A day with no start time that suits the appointment sends the dialog back to the
      date: date and time are cleared and the next five working days are offered. */
  lemma EmptyDayBacktracks(slots: Slots, date: Option<string>, session: Session,
                           parse: string -> Option<int>, today: int)
    requires ChoosingTime(slots, date, parse, today)
    requires Usable(slots, date, session, parse, today) == []
    ensures var r := DialogHook(slots, date, session, parse, today);
      && r.Success?
      && r.value.action == ElicitSlot(slots.Clear(Date).Clear(Time), Date, NoAvailabilityMessage,
           Generic("Specify Date", "What day works best for you?", Some(DateOptions(today))))
      && r.value.session == session.(store := StoreAfterLookup(session.store, date.value, parse))
  {
    ReachesSchedule(slots, date, session, parse, today);
  }

  /** With a suitable time left on the day, a requested time is handed on to the bot
      exactly when it is free for the appointment's whole duration. */
  lemma RequestedTimeDelegated(slots: Slots, date: Option<string>, session: Session,
                               parse: string -> Option<int>, today: int)
    requires ChoosingTime(slots, date, parse, today) && Filled(slots.time)
    requires Usable(slots, date, session, parse, today) != []
    ensures var r := DialogHook(slots, date, session, parse, today);
      var t := slots.time.value;
      var avail := DayList(session.store, date.value, parse);
      && IsClock(t) && r.Success?
      && (r.value.action.Delegate? <==>
            t in avail && (Duration(slots.appointmentType.value) == Some(30) || Increment(t) in avail))
      && (r.value.action.Delegate? ==> r.value.action.slots == slots)
  {
    ReachesSchedule(slots, date, session, parse, today);
    var avail := DayList(session.store, date.value, parse);
    var duration := Duration(slots.appointmentType.value);
    assert IsAvailable(slots.time.value, duration, avail).Success?;
    UsableRenderable(duration, avail);
  }

  /** Whatever the answer, a requested time's 12-hour rendering is kept in the session,
      next to the store as the day's lookup left it. */
  lemma RequestedTimeNoted(slots: Slots, date: Option<string>, session: Session,
                           parse: string -> Option<int>, today: int)
    requires ChoosingTime(slots, date, parse, today) && Filled(slots.time)
    requires Usable(slots, date, session, parse, today) != []
    ensures var r := DialogHook(slots, date, session, parse, today);
      && HasHour(slots.time.value) && r.Success?
      && r.value.session == Session(StoreAfterLookup(session.store, date.value, parse),
                                    Some(TimeOutput(slots.time.value)))
  {
    ReachesSchedule(slots, date, session, parse, today);
    var avail := DayList(session.store, date.value, parse);
    var duration := Duration(slots.appointmentType.value);
    assert IsAvailable(slots.time.value, duration, avail).Success?;
  }

  /** Past the empty-day check, the reply either delegates or offers the day's suitable
      times, opening with the question or the notice that the requested time is taken. */
  lemma ScheduleOffers(slots: Slots, date: Option<string>, session: Session,
                       parse: string -> Option<int>, today: int)
    requires ChoosingTime(slots, date, parse, today)
    requires Usable(slots, date, session, parse, today) != []
    ensures var r := DialogHook(slots, date, session, parse, today);
      var u := Usable(slots, date, session, parse, today);
      && r.Success? && Renderable(u)
      && (r.value.action.Delegate? || r.value.action ==
            OfferTimes(slots, date.value, u, Opening(slots, date.value), StoreAfterLookup(session.store, date.value, parse)))
  {
    ReachesSchedule(slots, date, session, parse, today);
    var avail := DayList(session.store, date.value, parse);
    UsableRenderable(Duration(slots.appointmentType.value), avail);
    if Filled(slots.time) {
      RequestedTimeDelegated(slots, date, session, parse, today);
    }
  }

  /** Offering a single time confirms it. */
  lemma OfferOne(slots: Slots, date: string, usable: seq<string>, opening: string, store: Store)
    requires |usable| == 1 && Renderable(usable)
    ensures OfferTimes(slots, date, usable, opening, store) ==
      ConfirmIntent(slots.(time := Some(usable[0])),
        opening + TimeOutput(usable[0]) + " is our only availability, does that work for you?",
        Generic("Confirm Appointment", "Is " + TimeOutput(usable[0]) + " on " + date + " okay?", Some(YesNo)))
  {
  }

  /** Offering several times asks for the time, listing them. */
  lemma OfferSeveral(slots: Slots, date: string, usable: seq<string>, opening: string, store: Store)
    requires |usable| >= 2 && Renderable(usable) && Renderable(usable[..Min(3, |usable|)])
    ensures OfferTimes(slots, date, usable, opening, store) ==
      ElicitSlot(slots, Time, opening + AvailableTimeString(usable),
        ResponseCard("Specify Time", "What time works best for you?", TimeOptions(slots.appointmentType, Some(date), store)))
  {
  }

  /** When the day has exactly one suitable start time and the requested one (if any) is
      not free, that time is put into the slot and offered for confirmation. */
  lemma OnlyTimeConfirmed(slots: Slots, date: Option<string>, session: Session,
                          parse: string -> Option<int>, today: int)
    requires ChoosingTime(slots, date, parse, today)
    requires |Usable(slots, date, session, parse, today)| == 1
    ensures var r := DialogHook(slots, date, session, parse, today);
      var u := Usable(slots, date, session, parse, today)[0];
      && r.Success? && HasHour(u)
      && (r.value.action.Delegate? || r.value.action == ConfirmIntent(slots.(time := Some(u)),
            Opening(slots, date.value) + TimeOutput(u) + " is our only availability, does that work for you?",
            Generic("Confirm Appointment", "Is " + TimeOutput(u) + " on " + date.value + " okay?", Some(YesNo))))
  {
    ScheduleOffers(slots, date, session, parse, today);
    var u := Usable(slots, date, session, parse, today);
    OfferOne(slots, date.value, u, Opening(slots, date.value), StoreAfterLookup(session.store, date.value, parse));
  }

  /** When the day has several suitable start times and the requested one (if any) is not
      free, the time is asked for: the message names the first two or three, and the card
      offers the first five of them. */
  lemma SeveralTimesOffered(slots: Slots, date: Option<string>, session: Session,
                            parse: string -> Option<int>, today: int)
    requires ChoosingTime(slots, date, parse, today)
    requires |Usable(slots, date, session, parse, today)| >= 2
    ensures var r := DialogHook(slots, date, session, parse, today);
      var u := Usable(slots, date, session, parse, today);
      var store := StoreAfterLookup(session.store, date.value, parse);
      && r.Success? && Renderable(u[..Min(3, |u|)])
      && (r.value.action.Delegate? || r.value.action == ElicitSlot(slots, Time,
            Opening(slots, date.value) + AvailableTimeString(u),
            ResponseCard("Specify Time", "What time works best for you?",
              TimeOptions(slots.appointmentType, Some(date.value), store))))
  {
    ScheduleOffers(slots, date, session, parse, today);
    var u := Usable(slots, date, session, parse, today);
    RenderablePrefix(u, Min(3, |u|));
    OfferSeveral(slots, date.value, u, Opening(slots, date.value), StoreAfterLookup(session.store, date.value, parse));
  }

  /** A time offered for confirmation is one the availability check accepts for the
      appointment's duration on that day, and lies on the half-hour grid. */
  lemma ConfirmedTimeBookable(slots: Slots, date: Option<string>, session: Session,
                              parse: string -> Option<int>, today: int)
    requires ChoosingTime(slots, date, parse, today)
    requires DialogHook(slots, date, session, parse, today).Success?
    requires DialogHook(slots, date, session, parse, today).value.action.ConfirmIntent?
    ensures var a := DialogHook(slots, date, session, parse, today).value.action;
      && a.slots.time.Some? && a.slots.time.value in Grid() && IsClock(a.slots.time.value)
      && IsAvailable(a.slots.time.value, Duration(slots.appointmentType.value),
           DayList(session.store, date.value, parse)) == Success(true)
  {
    ReachesSchedule(slots, date, session, parse, today);
    var avail := DayList(session.store, date.value, parse);
    var duration := Duration(slots.appointmentType.value);
    var u := Usable(slots, date, session, parse, today);
    if |u| == 1 {
      OnlyTimeConfirmed(slots, date, session, parse, today);
      KeptAreAvailable(duration, avail, 0);
    } else if |u| == 0 {
      EmptyDayBacktracks(slots, date, session, parse, today);
    } else {
      SeveralTimesOffered(slots, date, session, parse, today);
    }
  }

  /** The day's lookup stores a generated list under the day's key only when that key was
      missing and the list is not empty; looking up again changes nothing. */
  lemma LookupSettles(store: Store, date: string, parse: string -> Option<int>)
    requires parse(date).Some?
    ensures var after := StoreAfterLookup(store, date, parse);
      && (forall k :: k in store ==> k in after && after[k] == store[k])
      && (forall k :: k in after && k !in store ==> k == DayKey(date, parse) && after[k] == WeekdaySlots)
      && DayList(after, date, parse) == DayList(store, date, parse)
      && StoreAfterLookup(after, date, parse) == after
  {
  }

  /** Once a time is being chosen, the hook's store is the one the day's lookup leaves. */
  lemma HookStore(slots: Slots, date: Option<string>, session: Session,
                  parse: string -> Option<int>, today: int)
    requires ChoosingTime(slots, date, parse, today)
    ensures var r := DialogHook(slots, date, session, parse, today);
      r.Success? && r.value.session.store == StoreAfterLookup(session.store, date.value, parse)
  {
    if Usable(slots, date, session, parse, today) == [] {
      EmptyDayBacktracks(slots, date, session, parse, today);
    } else if Filled(slots.time) {
      RequestedTimeNoted(slots, date, session, parse, today);
    } else {
      UnrequestedSession(slots, date, session, parse, today);
    }
  }

  /** The dialog hook never forgets or alters a day it already knows; the only day it can
      add is the requested one, with the full weekday list. */
  lemma DialogStoreOnlyGains(slots: Slots, date: Option<string>, session: Session,
                             parse: string -> Option<int>, today: int)
    ensures var r := DialogHook(slots, date, session, parse, today);
      && r.Success?
      && (forall k :: k in session.store ==> k in r.value.session.store && r.value.session.store[k] == session.store[k])
      && (forall k :: k in r.value.session.store && k !in session.store ==>
            date.Some? && parse(date.value).Some? && k == DayKey(date.value, parse)
            && r.value.session.store[k] == WeekdaySlots)
  {
    if ChoosingTime(slots, date, parse, today) {
      HookStore(slots, date, session, parse, today);
      LookupSettles(session.store, date.value, parse);
    } else {
      EarlyRepliesKeepSession(slots, date, session, parse, today);
    }
  }

  /** Without a requested time, offering times leaves the rendered time in the session
      as it was. */
  lemma UnrequestedSession(slots: Slots, date: Option<string>, session: Session,
                           parse: string -> Option<int>, today: int)
    requires ChoosingTime(slots, date, parse, today) && !Filled(slots.time)
    requires Usable(slots, date, session, parse, today) != []
    ensures var r := DialogHook(slots, date, session, parse, today);
      r.Success? && r.value.session == session.(store := StoreAfterLookup(session.store, date.value, parse))
  {
    ReachesSchedule(slots, date, session, parse, today);
  }

  /** Before a time is being chosen the hook leaves the session as it was. */
  lemma EarlyRepliesKeepSession(slots: Slots, date: Option<string>, session: Session,
                                parse: string -> Option<int>, today: int)
    requires !ChoosingTime(slots, date, parse, today)
    ensures var r := DialogHook(slots, date, session, parse, today);
      r.Success? && r.value.session == session
  {
  }

  /** Asking again with the same slots and the session the hook handed back gives the same
      reply: the hook is idempotent. */
  lemma DialogRepeatable(slots: Slots, date: Option<string>, session: Session,
                         parse: string -> Option<int>, today: int)
    ensures var r := DialogHook(slots, date, session, parse, today);
      && r.Success?
      && DialogHook(slots, date, r.value.session, parse, today) == r
  {
    if ChoosingTime(slots, date, parse, today) {
      LookupSettles(session.store, date.value, parse);
      if Usable(slots, date, session, parse, today) == [] {
        RepeatEmptyDay(slots, date, session, parse, today);
      } else {
        RepeatOffer(slots, date, session, parse, today);
      }
    } else {
      EarlyRepliesKeepSession(slots, date, session, parse, today);
    }
  }

  lemma RepeatEmptyDay(slots: Slots, date: Option<string>, session: Session,
                       parse: string -> Option<int>, today: int)
    requires ChoosingTime(slots, date, parse, today)
    requires Usable(slots, date, session, parse, today) == []
    ensures var r := DialogHook(slots, date, session, parse, today);
      && r.Success?
      && DialogHook(slots, date, r.value.session, parse, today) == r
  {
    var again := DialogHook(slots, date, session, parse, today).value.session;
    EmptyDayBacktracks(slots, date, session, parse, today);
    LookupSettles(session.store, date.value, parse);
    assert Usable(slots, date, again, parse, today) == [];
    EmptyDayBacktracks(slots, date, again, parse, today);
  }

  lemma RepeatOffer(slots: Slots, date: Option<string>, session: Session,
                    parse: string -> Option<int>, today: int)
    requires ChoosingTime(slots, date, parse, today)
    requires Usable(slots, date, session, parse, today) != []
    ensures var r := DialogHook(slots, date, session, parse, today);
      && r.Success?
      && DialogHook(slots, date, r.value.session, parse, today) == r
  {
    var r := DialogHook(slots, date, session, parse, today);
    HookStore(slots, date, session, parse, today);
    var again := r.value.session;
    LookupSettles(session.store, date.value, parse);
    assert Usable(slots, date, again, parse, today) == Usable(slots, date, session, parse, today);
    ScheduleOffers(slots, date, session, parse, today);
    ScheduleOffers(slots, date, again, parse, today);
    if Filled(slots.time) {
      RequestedTimeNoted(slots, date, session, parse, today);
      RequestedTimeNoted(slots, date, again, parse, today);
      RequestedTimeDelegated(slots, date, session, parse, today);
      RequestedTimeDelegated(slots, date, again, parse, today);
    } else {
      UnrequestedSession(slots, date, session, parse, today);
      UnrequestedSession(slots, date, again, parse, today);
    }
  }

  /** The dialog hook delegates only a requested time that is free on the chosen day for
      the appointment's whole duration. */
  lemma DelegatedTimeIsFree(slots: Slots, date: Option<string>, session: Session,
                            parse: string -> Option<int>, today: int)
    requires DialogHook(slots, date, session, parse, today).Success?
    requires DialogHook(slots, date, session, parse, today).value.action.Delegate?
    ensures && ChoosingTime(slots, date, parse, today) && Filled(slots.time)
            && Usable(slots, date, session, parse, today) != []
            && IsClock(slots.time.value)
            && var avail := DayList(session.store, date.value, parse);
               var t := slots.time.value;
               && t in avail
               && (Duration(slots.appointmentType.value) == Some(30) || Increment(t) in avail)
  {
    if ChoosingTime(slots, date, parse, today) {
      if Usable(slots, date, session, parse, today) == [] {
        EmptyDayBacktracks(slots, date, session, parse, today);
      } else if !Filled(slots.time) {
        ScheduleOffers(slots, date, session, parse, today);
      } else {
        RequestedTimeDelegated(slots, date, session, parse, today);
      }
    }
  }

  /* ---------------------------------------------------------------------------
     Fulfilment code hook
     --------------------------------------------------------------------------- */

  /** All three slots given. */
  predicate AllGiven(slots: Slots, date: Option<string>) {
    Filled(slots.appointmentType) && Filled(date) && Filled(slots.time)
  }

  /** The start times an appointment takes from the day's list. */
  function BookedTimes(time: string, duration: Option<int>): multiset<string>
    requires IsClock(time)
  {
    if duration == Some(60) then multiset{time, Increment(time)} else multiset{time}
  }

  /** Without all three slots, fulfilment fails politely and changes nothing. */
  lemma FulfilNeedsAllSlots(slots: Slots, date: Option<string>, session: Session, parse: string -> Option<int>)
    requires !AllGiven(slots, date)
    ensures Fulfil(slots, date, session, parse) == Success(Reply(Close(Failed, MissingInfoMessage), session))
  {
  }

  /** A time that does not split into two integers, or a date that does not parse, fails
      with the booking-error message and changes nothing. */
  lemma FulfilRejectsUnreadable(slots: Slots, date: Option<string>, session: Session, parse: string -> Option<int>)
    requires AllGiven(slots, date)
    requires !IsClock(slots.time.value) || parse(date.value).None?
    ensures Fulfil(slots, date, session, parse) == Success(Reply(Close(Failed, BookingErrorMessage), session))
  {
  }

  /** Past the checks, fulfilment commits the padded time on the parsed day. */
  lemma FulfilCommits(slots: Slots, date: Option<string>, session: Session, parse: string -> Option<int>)
    requires AllGiven(slots, date) && IsClock(slots.time.value) && parse(date.value).Some?
    ensures Fulfil(slots, date, session, parse) ==
      Commit(slots.appointmentType.value, Canonical(slots.time.value), DayKey(date.value, parse), date.value, session)
  {
  }

  /** Committing raises exactly when the list is non-empty and lacks the time, or, for a
      60-minute appointment, the half hour after it. */
  lemma CommitFaultIff(appointmentType: string, time: string, key: string, date: string, session: Session)
    requires IsClock(time)
    ensures var avail := Entry(session.store, key);
      Commit(appointmentType, time, key, date, session).Failure? <==>
        |avail| > 0 && (time !in avail || (Duration(appointmentType) == Some(60) && Increment(time) !in avail))
  {
  }

  /** Fulfilment raises exactly when the day has a non-empty list that lacks the padded
      time, or, for a 60-minute appointment, the half hour after it. */
  lemma FulfilFaultIff(slots: Slots, date: Option<string>, session: Session, parse: string -> Option<int>)
    ensures Fulfil(slots, date, session, parse).Failure? <==>
      && AllGiven(slots, date) && IsClock(slots.time.value) && parse(date.value).Some?
      && var t := Canonical(slots.time.value);
         var avail := Entry(session.store, DayKey(date.value, parse));
         && |avail| > 0
         && (t !in avail || (Duration(slots.appointmentType.value) == Some(60) && Increment(t) !in avail))
  {
    if AllGiven(slots, date) && IsClock(slots.time.value) && parse(date.value).Some? {
      FulfilCommits(slots, date, session, parse);
      CommitFaultIff(slots.appointmentType.value, Canonical(slots.time.value), DayKey(date.value, parse), date.value, session);
    }
  }

  /** A successful commit closes as fulfilled with the booking message and keeps the
      rendered time; an absent or empty list changes nothing. */
  lemma CommitCloses(appointmentType: string, time: string, key: string, date: string, session: Session)
    requires IsClock(time)
    requires Commit(appointmentType, time, key, date, session).Success?
    ensures var r := Commit(appointmentType, time, key, date, session).value;
      && HasHour(time)
      && r.action == Close(Fulfilled, BookedMessage(appointmentType, time, date))
      && r.session.formattedTime == session.formattedTime
      && (|Entry(session.store, key)| == 0 ==> r.session == session)
  {
  }

  /** A successful booking closes as fulfilled with the booking message and keeps the
      rendered time; a day with no list is left alone. */
  lemma FulfilCloses(slots: Slots, date: Option<string>, session: Session, parse: string -> Option<int>)
    requires AllGiven(slots, date) && IsClock(slots.time.value) && parse(date.value).Some?
    requires Fulfil(slots, date, session, parse).Success?
    ensures var r := Fulfil(slots, date, session, parse).value;
      var t := Canonical(slots.time.value);
      && HasHour(t)
      && r.action == Close(Fulfilled, BookedMessage(slots.appointmentType.value, t, date.value))
      && r.session.formattedTime == session.formattedTime
      && (|Entry(session.store, DayKey(date.value, parse))| == 0 ==> r.session == session)
  {
    FulfilCommits(slots, date, session, parse);
    CommitCloses(slots.appointmentType.value, Canonical(slots.time.value), DayKey(date.value, parse), date.value, session);
  }

  /** On a non-empty list, a successful commit stores what `Book` leaves under both the
      key and the date. */
  lemma CommitStores(appointmentType: string, time: string, key: string, date: string, session: Session)
    requires IsClock(time)
    requires Commit(appointmentType, time, key, date, session).Success?
    requires |Entry(session.store, key)| > 0
    ensures var b := Book(session.store[key], time, Duration(appointmentType));
      && b.Success?
      && Commit(appointmentType, time, key, date, session).value.session.store ==
           session.store[key := b.value][date := b.value]
  {
  }

  /** Storing one list under two keys of a store that has the first. */
  lemma StoredUnderBoth(store: Store, key: string, date: string, rest: seq<string>)
    requires key in store
    ensures var after := store[key := rest][date := rest];
      && key in after && date in after && after[key] == rest && after[date] == rest
      && (forall k :: k in after ==> k in store || k == date)
      && (forall k :: k in store && k != key && k != date ==> k in after && after[k] == store[k])
  {
  }

  /** On a non-empty list, a successful commit takes the booked times from it and stores
      what is left under both the key and the date; no other day changes. */
  lemma CommitBooks(appointmentType: string, time: string, key: string, date: string, session: Session)
    requires IsClock(time)
    requires Commit(appointmentType, time, key, date, session).Success?
    requires |Entry(session.store, key)| > 0
    ensures var store := Commit(appointmentType, time, key, date, session).value.session.store;
      && key in store && date in store
      && store[date] == store[key]
      && multiset(store[key]) == multiset(session.store[key]) - BookedTimes(time, Duration(appointmentType))
      && (forall k :: k in store ==> k in session.store || k == date)
      && (forall k :: k in session.store && k != key && k != date ==> k in store && store[k] == session.store[k])
  {
    CommitStores(appointmentType, time, key, date, session);
    var b := Book(session.store[key], time, Duration(appointmentType));
    StoredUnderBoth(session.store, key, date, b.value);
  }

  /** On a day with a list, the booked times leave it, the shortened list is stored under
      both the day's key and the normalised date text, and no other day changes. */
  lemma FulfilBooks(slots: Slots, date: Option<string>, session: Session, parse: string -> Option<int>)
    requires AllGiven(slots, date) && IsClock(slots.time.value) && parse(date.value).Some?
    requires Fulfil(slots, date, session, parse).Success?
    requires |Entry(session.store, DayKey(date.value, parse))| > 0
    ensures var store := Fulfil(slots, date, session, parse).value.session.store;
      var t := Canonical(slots.time.value);
      var key := DayKey(date.value, parse);
      && IsClock(t)
      && key in store && date.value in store
      && store[date.value] == store[key]
      && multiset(store[key]) == multiset(session.store[key]) - BookedTimes(t, Duration(slots.appointmentType.value))
      && (forall k :: k in store ==> k in session.store || k == date.value)
      && (forall k :: k in session.store && k != key && k != date.value ==> k in store && store[k] == session.store[k])
  {
    FulfilCommits(slots, date, session, parse);
    CommitBooks(slots.appointmentType.value, Canonical(slots.time.value), DayKey(date.value, parse), date.value, session);
  }

  /* ---------------------------------------------------------------------------
     make_appointment
     --------------------------------------------------------------------------- */

  /** Any phase other than the two hooks hands the slots back to the bot untouched. */
  lemma OtherSourceDelegates(slots: Slots, session: Session, parse: string -> Option<int>, today: int)
    ensures MakeAppointment(Request(OtherSource, slots, session), parse, today) ==
      Success(Reply(Delegate(slots), session))
  {
  }

  /** Every list in the store holds only half-hour grid starts. */
  predicate GridStore(store: Store) {
    forall k, t :: k in store && t in store[k] ==> t in Grid()
  }

  /** The generated weekday list holds only grid starts. */
  lemma WeekdaySlotsInGrid()
    ensures forall t :: t in WeekdaySlots ==> t in Grid()
  {
    var ts := Times(WeekdayIndices);
    forall i | 0 <= i < |ts|
      ensures ts[i] in Grid()
    {
      assert Grid()[WeekdayIndices[i]] == ts[i];
    }
    assert forall t :: t in ts ==> t in Grid();
    WeekdaySlotsOnGrid();
  }

  /** Removing times from a list cannot add one. */
  lemma SmallerHasNoNew(a: seq<string>, b: seq<string>, m: multiset<string>)
    requires multiset(a) == multiset(b) - m
    ensures forall t :: t in a ==> t in b
  {
    forall t | t in a
      ensures t in b
    {
      assert t in multiset(a);
    }
  }

  /** The dialog hook keeps every list in the store on the grid. */
  lemma DialogKeepsGrid(slots: Slots, date: Option<string>, session: Session,
                        parse: string -> Option<int>, today: int)
    requires GridStore(session.store)
    ensures var r := DialogHook(slots, date, session, parse, today);
      r.Success? && GridStore(r.value.session.store)
  {
    DialogStoreOnlyGains(slots, date, session, parse, today);
    WeekdaySlotsInGrid();
  }

  /** Fulfilment keeps every list in the store on the grid. */
  lemma FulfilKeepsGrid(slots: Slots, date: Option<string>, session: Session, parse: string -> Option<int>)
    requires GridStore(session.store)
    requires Fulfil(slots, date, session, parse).Success?
    ensures GridStore(Fulfil(slots, date, session, parse).value.session.store)
  {
    if AllGiven(slots, date) && IsClock(slots.time.value) && parse(date.value).Some? {
      var key := DayKey(date.value, parse);
      if |Entry(session.store, key)| > 0 {
        FulfilBooks(slots, date, session, parse);
        var store := Fulfil(slots, date, session, parse).value.session.store;
        var t := Canonical(slots.time.value);
        SmallerHasNoNew(store[key], session.store[key], BookedTimes(t, Duration(slots.appointmentType.value)));
      } else {
        FulfilCloses(slots, date, session, parse);
      }
    }
  }

  /** `make_appointment` keeps every list in the store on the grid. */
  lemma MakeAppointmentKeepsGrid(request: Request, parse: string -> Option<int>, today: int)
    requires GridStore(request.session.store)
    requires MakeAppointment(request, parse, today).Success?
    ensures GridStore(MakeAppointment(request, parse, today).value.session.store)
  {
    var date := NormalizeDate(request.slots.date, parse);
    match request.source
    case DialogCodeHook => DialogKeepsGrid(request.slots, date, request.session, parse, today);
    case FulfillmentCodeHook => FulfilKeepsGrid(request.slots, date, request.session, parse);
    case OtherSource =>
  }

  /** After a delegation the day's list is in the store, and holds the requested time,
      which is a grid start and already in padded form (and the half hour after it for a
      60-minute appointment). */
  lemma DelegatedTimeStored(slots: Slots, date: Option<string>, session: Session,
                            parse: string -> Option<int>, today: int)
    requires GridStore(session.store)
    requires DialogHook(slots, date, session, parse, today).Success?
    requires DialogHook(slots, date, session, parse, today).value.action.Delegate?
    ensures var s1 := DialogHook(slots, date, session, parse, today).value.session;
      && Filled(slots.appointmentType) && Filled(date) && parse(date.value).Some? && Filled(slots.time)
      && IsClock(slots.time.value)
      && var key := DayKey(date.value, parse);
         var t := slots.time.value;
         && Canonical(t) == t
         && key in s1.store && t in s1.store[key]
         && (Duration(slots.appointmentType.value) == Some(60) ==> Increment(t) in s1.store[key])
  {
    DelegatedTimeIsFree(slots, date, session, parse, today);
    var t := slots.time.value;
    var avail := DayList(session.store, date.value, parse);
    RequestedTimeNoted(slots, date, session, parse, today);
    LookupSettles(session.store, date.value, parse);
    WeekdaySlotsInGrid();
    assert t in Grid();
    var k := OnGrid(t);
    CanonicalGrid(k);
  }

  /** At the hooks' level: a delegated time is booked by the fulfilment that follows. */
  lemma HookThenFulfil(slots: Slots, date: Option<string>, session: Session,
                       parse: string -> Option<int>, today: int)
    requires GridStore(session.store)
    requires DialogHook(slots, date, session, parse, today).Success?
    requires DialogHook(slots, date, session, parse, today).value.action.Delegate?
    ensures var s1 := DialogHook(slots, date, session, parse, today).value.session;
      var r2 := Fulfil(slots, date, s1, parse);
      && AllGiven(slots, date) && parse(date.value).Some? && IsClock(slots.time.value)
      && var key := DayKey(date.value, parse);
         && r2.Success? && r2.value.action.Close? && r2.value.action.state == Fulfilled
         && key in s1.store && key in r2.value.session.store
         && multiset(r2.value.session.store[key]) ==
              multiset(s1.store[key]) - BookedTimes(slots.time.value, Duration(slots.appointmentType.value))
  {
    DelegatedTimeStored(slots, date, session, parse, today);
    var s1 := DialogHook(slots, date, session, parse, today).value.session;
    FulfilFaultIff(slots, date, s1, parse);
    FulfilCloses(slots, date, s1, parse);
    FulfilBooks(slots, date, s1, parse);
  }

  /** `make_appointment` runs the hook its phase names, on the normalised date. */
  lemma Dispatch(slots: Slots, session: Session, parse: string -> Option<int>, today: int)
    ensures MakeAppointment(Request(DialogCodeHook, slots, session), parse, today) ==
      DialogHook(slots, NormalizeDate(slots.date, parse), session, parse, today)
    ensures MakeAppointment(Request(FulfillmentCodeHook, slots, session), parse, today) ==
      Fulfil(slots, NormalizeDate(slots.date, parse), session, parse)
  {
  }

  /** When the parser reads back its own `%Y-%m-%d` text, a normalised date is its own
      store key, so the fulfilment edit writes the day's list under a single key. */
  lemma NormalizedDateIsKey(date: string, parse: string -> Option<int>)
    requires date != "" && parse(date).Some?
    requires parse(FormatIso(parse(date).value)) == parse(date)
    ensures var n := NormalizeDate(Some(date), parse);
      && Filled(n) && parse(n.value).Some?
      && DayKey(n.value, parse) == n.value
  {
  }

  /** The conversation's two turns compose: when the dialog hook hands a time on and the
      store holds only grid starts, the fulfilment hook that follows with the same slots
      books it, taking exactly that time (and the half hour after it for a 60-minute
      appointment) from the day's list. */
  lemma DelegateThenFulfil(slots: Slots, session: Session, parse: string -> Option<int>, today: int)
    requires GridStore(session.store)
    requires var r := MakeAppointment(Request(DialogCodeHook, slots, session), parse, today);
      r.Success? && r.value.action.Delegate?
    ensures var date := NormalizeDate(slots.date, parse);
      var s1 := MakeAppointment(Request(DialogCodeHook, slots, session), parse, today).value.session;
      var r2 := MakeAppointment(Request(FulfillmentCodeHook, slots, s1), parse, today);
      && AllGiven(slots, date) && parse(date.value).Some? && IsClock(slots.time.value)
      && var key := DayKey(date.value, parse);
         && r2.Success? && r2.value.action.Close? && r2.value.action.state == Fulfilled
         && key in s1.store && key in r2.value.session.store
         && multiset(r2.value.session.store[key]) ==
              multiset(s1.store[key]) - BookedTimes(slots.time.value, Duration(slots.appointmentType.value))
  {
    var date := NormalizeDate(slots.date, parse);
    Dispatch(slots, session, parse, today);
    var s1 := DialogHook(slots, date, session, parse, today).value.session;
    Dispatch(slots, s1, parse, today);
    HookThenFulfil(slots, date, session, parse, today);
  }
}

=== FILE: intent.dfy ===
/** The request side of the MakeAppointment intent: its three slots, their values, and
    the phase in which the bot is invoked. */
module Intent {
  import opened Basics

  datatype SlotName = AppointmentType | Date | Time

  /** The slot's name as the bot spells it, used in the "Specify ..." card titles. */
  function SlotKey(n: SlotName): (key: string)
    ensures |key| > 0
  {
    match n
    case AppointmentType => "AppointmentType"
    case Date => "Date"
    case Time => "Time"
  }

  /** The interpreted value of each slot, `None` when the slot is unset. */
  datatype Slots = Slots(appointmentType: Option<string>, date: Option<string>, time: Option<string>)
  {
    function Get(n: SlotName): Option<string> {
      match n
      case AppointmentType => appointmentType
      case Date => date
      case Time => time
    }

    /** `slots[n] = None`: only slot n changes. */
    function Clear(n: SlotName): (r: Slots)
      ensures r.Get(n).None?
      ensures forall m :: m != n ==> r.Get(m) == Get(m)
    {
      match n
      case AppointmentType => this.(appointmentType := None)
      case Date => this.(date := None)
      case Time => this.(time := None)
    }
  }

  /** Python truthiness of a slot value: set and not the empty string. */
  predicate Filled(v: Option<string>) {
    v.Some? && v.value != ""
  }

  /** `invocationSource`: the dialog hook, the fulfilment hook, or anything else. */
  datatype Source = DialogCodeHook | FulfillmentCodeHook | OtherSource
}

=== FILE: responses.dfy ===
/** What the bot shows besides its message: response cards with up to five buttons, the
    button options for each slot, and the sentence that lists free times. */
module Responses {
  import opened Basics
  import opened Text
  import opened Clock
  import opened Calendar
  import opened Availability
  import opened Intent

  datatype Button = Button(text: string, value: string)

  /** A generic response card; `Bare` is an option list handed over where a card is
      expected, as the date-trouble reply does. */
  datatype Card =
    | Generic(title: string, subtitle: string, buttons: Option<seq<Button>>)
    | Bare(options: seq<Button>)

  function Min(a: int, b: int): int {
    if a < b then a else b
  }

  /** `build_response_card`: no buttons without options, otherwise the first five options. */
  function ResponseCard(title: string, subtitle: string, options: Option<seq<Button>>): (c: Card)
    ensures c.Generic? && c.title == title && c.subtitle == subtitle
    ensures c.buttons.None? <==> options.None?
    ensures options.Some? ==>
      |c.buttons.value| == Min(5, |options.value|) && c.buttons.value <= options.value
    ensures options.Some? && |options.value| <= 5 ==> c.buttons == options
  {
    match options
    case None => Generic(title, subtitle, None)
    case Some(o) =>
      var shown := o[..Min(5, |o|)];
      assert |o| <= 5 ==> shown == o;
      Generic(title, subtitle, Some(shown))
  }

  /* ---------------------------------------------------------------------------
     build_available_time_string
     --------------------------------------------------------------------------- */

  const SomeOpening := "We have availabilities at "
  const PlentyOpening := "We have plenty of availability, including "

  /** Times that `build_time_output_string` can render. */
  predicate Renderable(a: seq<string>) {
    forall i :: 0 <= i < |a| ==> HasHour(a[i])
  }

  /** `build_available_time_string`: the sentence names exactly the first min(3, n) times,
      rendered, as an English list ("A and B", "A, B and C"), and says "plenty" exactly
      when more than three are free. */
  function AvailableTimeString(a: seq<string>): (r: string)
    requires |a| >= 2 && Renderable(a[..Min(3, |a|)])
    ensures r == (if |a| > 3 then PlentyOpening else SomeOpening) + EnglishList(Rendered(a[..Min(3, |a|)]))
  {
    SentenceLists(|a| > 3, Rendered(a[..Min(3, |a|)]));
    TimeSentence(|a| > 3, Rendered(a[..Min(3, |a|)]))
  }

  /** The sentence around two or three rendered times. */
  function TimeSentence(plenty: bool, shown: seq<string>): string
    requires |shown| >= 2
  {
    var opening := (if plenty then PlentyOpening else SomeOpening) + shown[0];
    if |shown| == 2 then opening + " and " + shown[1]
    else opening + ", " + shown[1] + " and " + shown[2]
  }

  /** Items separated by ", ". */
  function CommaList(xs: seq<string>): string {
    if |xs| == 0 then ""
    else if |xs| == 1 then xs[0]
    else CommaList(xs[..|xs| - 1]) + ", " + xs[|xs| - 1]
  }

  /** An English enumeration: "A and B", "A, B and C", ... */
  function EnglishList(xs: seq<string>): string
    requires |xs| >= 2
  {
    CommaList(xs[..|xs| - 1]) + " and " + xs[|xs| - 1]
  }

  /** Each time rendered on a 12-hour clock. */
  function Rendered(a: seq<string>): (r: seq<string>)
    requires Renderable(a)
    ensures |r| == |a| && forall i :: 0 <= i < |a| ==> r[i] == TimeOutput(a[i])
  {
    seq(|a|, i requires 0 <= i < |a| => TimeOutput(a[i]))
  }

  lemma SentenceLists(plenty: bool, shown: seq<string>)
    requires 2 <= |shown| <= 3
    ensures TimeSentence(plenty, shown) ==
      (if plenty then PlentyOpening else SomeOpening) + EnglishList(shown)
  {
    var opening := if plenty then PlentyOpening else SomeOpening;
    if |shown| == 2 {
      assert shown == [shown[0], shown[1]];
      EnglishTwo(shown[0], shown[1]);
      Regroup(opening, shown[0], " and ", shown[1]);
    } else {
      assert shown == [shown[0], shown[1], shown[2]];
      EnglishThree(shown[0], shown[1], shown[2]);
      Regroup(opening, shown[0], ", ", shown[1] + " and " + shown[2]);
      Regroup(opening + shown[0] + ", ", shown[1], " and ", shown[2]);
      Regroup(shown[0], ", ", shown[1], " and " + shown[2]);
    }
  }

  /** Concatenation regrouped. */
  lemma Regroup(a: string, b: string, c: string, d: string)
    ensures a + b + c + d == a + (b + c + d)
    ensures a + b + c + d == a + b + (c + d)
  {
  }

  lemma EnglishTwo(x: string, y: string)
    ensures EnglishList([x, y]) == x + " and " + y
  {
    assert [x, y][..1] == [x];
  }

  lemma EnglishThree(x: string, y: string, z: string)
    ensures EnglishList([x, y, z]) == x + ", " + y + " and " + z
  {
    assert [x, y, z][..2] == [x, y];
    assert [x, y][..1] == [x];
    assert CommaList([x, y]) == x + ", " + y;
  }

  /* ---------------------------------------------------------------------------
     build_options
     --------------------------------------------------------------------------- */

  /** The three appointment types with their durations. */
  const TypeOptions: seq<Button> := [
    Button("cleaning (30 min)", "cleaning"),
    Button("root canal (60 min)", "root canal"),
    Button("whitening (30 min)", "whitening")
  ]

  /** Every type button carries a value that `get_duration` knows. */
  lemma TypeOptionsKnown(i: nat)
    requires i < |TypeOptions|
    ensures Duration(TypeOptions[i].value).Some?
  {
    assert Lower("cleaning") == "cleaning";
    assert Lower("root canal") == "root canal";
    assert Lower("whitening") == "whitening";
  }

  /** `build_options('Date')`: one button for each of the next five working days after
      today, labelled "month-day (weekday)" and valued with the `%Y-%m-%d` text. */
  function DateOptions(today: int): (r: seq<Button>)
    ensures |r| == 5
    ensures forall i :: 0 <= i < 5 ==>
      var d := WorkdaysAfter(today, 5)[i];
      r[i] == Button(DateLabel(d), FormatIso(d))
  {
    var days := WorkdaysAfter(today, 5);
    seq(5, i requires 0 <= i < 5 => Button(DateLabel(days[i]), FormatIso(days[i])))
  }

  /** Buttons for free times: rendered text, raw value, at most five. */
  function TimeButtons(times: seq<string>): (r: seq<Button>)
    requires Renderable(times)
    ensures |r| == Min(5, |times|)
    ensures forall i :: 0 <= i < |r| ==> r[i] == Button(TimeOutput(times[i]), times[i])
  {
    seq(Min(5, |times|), i requires 0 <= i < Min(5, |times|) => Button(TimeOutput(times[i]), times[i]))
  }

  /** Clocks are renderable. */
  lemma ClocksRenderable(a: seq<string>)
    requires forall i :: 0 <= i < |a| ==> IsClock(a[i])
    ensures Renderable(a)
  {
  }

  /** `build_options('Time')`: nothing without a type and a date, nothing when the store
      has no entry or an empty one for that date, and nothing when no start time suits the
      appointment's duration; otherwise the first five usable start times. */
  function TimeOptions(appointmentType: Option<string>, date: Option<string>, store: Store): (r: Option<seq<Button>>)
    ensures r.None? <==>
      || !Filled(appointmentType) || !Filled(date) || date.value !in store
      || ForDuration(Duration(appointmentType.value), store[date.value]) == []
    ensures r.Some? ==>
      var usable := ForDuration(Duration(appointmentType.value), store[date.value]);
      && 1 <= |r.value| == Min(5, |usable|)
      && forall i :: 0 <= i < |r.value| ==> r.value[i].value == usable[i]
    ensures r.Some? ==>
      var usable := ForDuration(Duration(appointmentType.value), store[date.value]);
      Renderable(usable) && r.value == TimeButtons(usable)
  {
    if !Filled(appointmentType) || !Filled(date) || date.value !in store || |store[date.value]| == 0 then
      if Filled(appointmentType) && Filled(date) && date.value in store then
        EmptyListKeepsNothing(Duration(appointmentType.value));
        None
      else
        None
    else
      var usable := ForDuration(Duration(appointmentType.value), store[date.value]);
      if |usable| == 0 then None
      else
        ForDurationShape(Duration(appointmentType.value), store[date.value]);
        ClocksRenderable(usable);
        Some(TimeButtons(usable))
  }

  /** The filter keeps nothing of an empty list. */
  lemma EmptyListKeepsNothing(duration: Option<int>)
    ensures ForDuration(duration, []) == []
  {
    MarkedNone(KeepFlags(duration, []), 14);
  }

  /** No set flag below k, no index. */
  lemma {:induction false} MarkedNone(f: seq<bool>, k: nat)
    requires k <= |f|
    requires forall j :: 0 <= j < k ==> !f[j]
    ensures Marked(f, k) == []
  {
    if k > 0 {
      MarkedNone(f, k - 1);
    }
  }

  /** Every time the time card offers is a grid start that passes the time checks and that
      `is_available` accepts for the appointment's duration. */
  lemma OfferedTimesBookable(appointmentType: string, date: string, store: Store, i: nat)
    requires Duration(appointmentType).Some?
    requires var r := TimeOptions(Some(appointmentType), Some(date), store); r.Some? && i < |r.value|
    ensures var v := TimeOptions(Some(appointmentType), Some(date), store).value[i].value;
      && date in store
      && v in Grid() && IsClock(v)
      && IsAvailable(v, Duration(appointmentType), store[date]) == Success(true)
  {
    KeptAreAvailable(Duration(appointmentType), store[date], i);
  }

  /** `build_options`: the fixed type buttons, the next five working days, or the time
      buttons for the given type, date and store. */
  function BuildOptions(slot: SlotName, appointmentType: Option<string>, date: Option<string>,
                        store: Store, today: int): (r: Option<seq<Button>>)
    ensures slot == AppointmentType ==> r == Some(TypeOptions)
    ensures slot == Date ==> r == Some(DateOptions(today))
    ensures slot == Time ==> r == TimeOptions(appointmentType, date, store)
  {
    match slot
    case AppointmentType => Some(TypeOptions)
    case Date => Some(DateOptions(today))
    case Time => TimeOptions(appointmentType, date, store)
  }
}

=== FILE: text.dfy ===
/** The few pieces of Python's string and integer conversion that the booking code relies
    on: `str(int)`, `int(str)`, `f"{n:02d}"`, `str.split`, `str.lower` and `str.zfill`. */
module Text {
  import opened Basics

  predicate IsDigit(c: char) {
    '0' <= c <= '9'
  }

  function DigitValue(c: char): (d: nat)
    requires IsDigit(c)
    ensures d < 10
  {
    (c as int) - ('0' as int)
  }

  function DigitChar(d: nat): (c: char)
    requires d < 10
    ensures IsDigit(c) && DigitValue(c) == d
  {
    (('0' as int) + d) as char
  }

  /* ---------------------------------------------------------------------------
     int(str): surrounding whitespace, an optional sign, then base-10 digits that
     may be grouped by single underscores.
     --------------------------------------------------------------------------- */

  /** The ASCII characters `int()` skips around a number: tab to carriage return, and the
      space. (`str.isspace` also holds of U+001C-U+001F, but `int()` rejects them.) */
  predicate IsSpace(c: char) {
    '\t' <= c <= '\r' || c == ' '
  }

  function TrimStart(s: string): (r: string)
    ensures |r| <= |s| && r == s[|s| - |r|..]
    ensures |r| > 0 ==> !IsSpace(r[0])
  {
    if |s| > 0 && IsSpace(s[0]) then TrimStart(s[1..]) else s
  }

  function TrimEnd(s: string): (r: string)
    ensures |r| <= |s| && r == s[..|r|]
    ensures |r| > 0 ==> !IsSpace(r[|r| - 1])
  {
    if |s| > 0 && IsSpace(s[|s| - 1]) then TrimEnd(s[..|s| - 1]) else s
  }

  /** The whitespace `int()` ignores at both ends, restricted to ASCII. */
  function Strip(s: string): string {
    TrimEnd(TrimStart(s))
  }

  /** Digits with single underscores between them, as `int()` accepts after the sign;
      read from the right, one digit or one "_digit" group at a time. */
  predicate IsDigitRun(s: string)
    decreases |s|
  {
    && |s| > 0
    && IsDigit(s[|s| - 1])
    && (|| |s| == 1
        || (s[|s| - 2] == '_' && |s| > 2 && IsDigitRun(s[..|s| - 2]))
        || (s[|s| - 2] != '_' && IsDigitRun(s[..|s| - 1])))
  }

  /** The value of a digit run, underscores ignored. */
  function RunValue(s: string): nat
    requires IsDigitRun(s)
    decreases |s|
  {
    var d := DigitValue(s[|s| - 1]);
    if |s| == 1 then d
    else if s[|s| - 2] == '_' then RunValue(s[..|s| - 2]) * 10 + d
    else RunValue(s[..|s| - 1]) * 10 + d
  }

  /** `int(s)`; `None` where Python raises ValueError. */
  function ParseInt(s: string): Option<int> {
    var t := Strip(s);
    if |t| > 0 && (t[0] == '+' || t[0] == '-') then
      if IsDigitRun(t[1..]) then
        var v: int := RunValue(t[1..]);
        Some(if t[0] == '-' then -v else v)
      else None
    else if IsDigitRun(t) then Some(RunValue(t))
    else None
  }

  /** Stripping leaves a string alone when neither end is whitespace. */
  lemma StripKeeps(s: string)
    requires |s| > 0 && !IsSpace(s[0]) && !IsSpace(s[|s| - 1])
    ensures Strip(s) == s
  {
    assert TrimStart(s) == s;
  }

  /* ---------------------------------------------------------------------------
     str(int) and f"{n:02d}", each proved to read back through int().
     --------------------------------------------------------------------------- */

  /** `str(n)` for n >= 0: decimal digits, no leading zero. */
  function NatToString(n: nat): (s: string)
    ensures IsDigitRun(s) && RunValue(s) == n
    ensures IsDigit(s[0]) && ':' !in s && '-' !in s
    ensures n >= 10 ==> |s| >= 2
  {
    if n < 10 then
      [DigitChar(n)]
    else
      var front := NatToString(n / 10);
      var s := front + [DigitChar(n % 10)];
      assert s[..|s| - 1] == front;
      s
  }

  /** `str(n)`. */
  function IntToString(n: int): (s: string)
    ensures |s| > 0 && ':' !in s
  {
    if n < 0 then "-" + NatToString(-n) else NatToString(n)
  }

  /** `int(str(n)) == n`. */
  lemma IntToStringParses(n: int)
    ensures ParseInt(IntToString(n)) == Some(n)
  {
    var s := IntToString(n);
    if n < 0 {
      StripKeeps(s);
      assert s[1..] == NatToString(-n);
    } else {
      StripKeeps(s);
    }
  }

  /** `f"{n:02d}"`: at least two characters, zero-filled after any sign. */
  function Pad2(n: int): (s: string)
    ensures |s| >= 2 && ':' !in s
    ensures n >= 0 ==> '-' !in s
    ensures 0 <= n < 10 ==> s == "0" + NatToString(n)
    ensures n >= 10 ==> s == NatToString(n)
  {
    if 0 <= n < 10 then "0" + NatToString(n) else IntToString(n)
  }

  /** `int(f"{n:02d}") == n`. */
  lemma Pad2Parses(n: int)
    ensures ParseInt(Pad2(n)) == Some(n)
  {
    if 0 <= n < 10 {
      var s := Pad2(n);
      StripKeeps(s);
      assert s[..|s| - 1] == "0";
      assert IsDigitRun("0") && RunValue("0") == 0;
    } else {
      IntToStringParses(n);
    }
  }

  /* ---------------------------------------------------------------------------
     str.split(sep), str.lower() and str.zfill(2)
     --------------------------------------------------------------------------- */

  /** `s.split(sep)`: always at least one part, none containing the separator. */
  function Split(s: string, sep: char): (parts: seq<string>)
    ensures |parts| > 0
  {
    if |s| == 0 then
      [""]
    else
      var rest := Split(s[1..], sep);
      if s[0] == sep then [""] + rest else [[s[0]] + rest[0]] + rest[1..]
  }

  /** A string without the separator splits into itself. */
  lemma {:induction false} SplitWhole(a: string, sep: char)
    requires sep !in a
    ensures Split(a, sep) == [a]
  {
    if |a| > 0 {
      SplitWhole(a[1..], sep);
      assert [a[0]] + a[1..] == a;
    }
  }

  /** Splitting `a + sep + b` cuts exactly at the separator after `a`. */
  lemma {:induction false} SplitAt(a: string, b: string, sep: char)
    requires sep !in a
    ensures Split(a + [sep] + b, sep) == [a] + Split(b, sep)
  {
    var s := a + [sep] + b;
    if |a| == 0 {
      assert s[1..] == b;
    } else {
      assert s[1..] == a[1..] + [sep] + b;
      SplitAt(a[1..], b, sep);
      assert [a[0]] + a[1..] == a;
    }
  }

  /** Splitting reverses joining two separator-free parts. */
  lemma SplitPair(a: string, b: string, sep: char)
    requires sep !in a && sep !in b
    ensures Split(a + [sep] + b, sep) == [a, b]
  {
    SplitAt(a, b, sep);
    SplitWhole(b, sep);
  }

  /** Splitting reverses joining three separator-free parts. */
  lemma SplitTriple(a: string, b: string, c: string, sep: char)
    requires sep !in a && sep !in b && sep !in c
    ensures Split(a + [sep] + (b + [sep] + c), sep) == [a, b, c]
  {
    SplitAt(a, b + [sep] + c, sep);
    SplitPair(b, c, sep);
  }

  function LowerChar(c: char): char {
    if 'A' <= c <= 'Z' then (c as int + 32) as char else c
  }

  /** `s.lower()` on ASCII letters; every other character is kept. */
  function Lower(s: string): string {
    seq(|s|, i requires 0 <= i < |s| => LowerChar(s[i]))
  }

  /** `s.zfill(2)`: left-pad with zeros to width two, after a leading sign. */
  function ZFill2(s: string): string {
    if |s| >= 2 then s
    else if |s| == 1 && (s[0] == '+' || s[0] == '-') then [s[0], '0']
    else if |s| == 1 then "0" + s
    else "00"
  }
}

=== FILE: validation.dfy ===
/** `validate_book_appointment`: the checks on the slots as the user gave them, in the order
    appointment type, time, date, reporting the first slot that fails with its message. */
module Validation {
  import opened Basics
  import opened Text
  import opened Clock
  import opened Calendar
  import opened Availability
  import opened Intent

  const UnknownTypeMessage := "I did not recognize that, can I book you a root canal, cleaning, or whitening?"
  const TimeFormatMessage := "Please provide time in HH:MM format (e.g., 10:30)"
  const TimeValueMessage := "Please provide a valid time in HH:MM format (e.g., 10:30)"
  const BusinessHoursMessage := "Our business hours are from 10:00 AM to 5:00 PM. What time works best for you?"
  const HalfHourMessage := "We schedule appointments every half hour (XX:00 or XX:30). What time works best for you?"
  const UnknownDateMessage := "I did not understand that, what date works best for you?"
  const AdvanceMessage := "Appointments must be scheduled a day in advance. Can you try a different date?"
  const WeekendMessage := "Our office is not open on the weekends, can you provide a work day?"

  /** The outcome of validation: all present slots pass, or the first slot that fails. */
  datatype Verdict = Valid | Invalid(slot: SlotName, message: string)

  /** What is wrong with a time slot, if anything. A time passes exactly when it has five
      characters, splits on ':' into two integers, the hour is 10 to 16 and the minute is
      0 or 30; each failure has its own message, tried in that order. */
  function TimeProblem(t: string): (r: Option<string>)
    ensures r.None? <==>
      |t| == 5 && IsClock(t) && 10 <= Hour(t) <= 16 && (Minute(t) == 0 || Minute(t) == 30)
    ensures r == Some(TimeFormatMessage) <==> |t| != 5 || |Split(t, ':')| != 2
    ensures r == Some(TimeValueMessage) <==> |t| == 5 && |Split(t, ':')| == 2 && !IsClock(t)
    ensures r == Some(BusinessHoursMessage) <==> |t| == 5 && IsClock(t) && !(10 <= Hour(t) <= 16)
    ensures r == Some(HalfHourMessage) <==>
      |t| == 5 && IsClock(t) && 10 <= Hour(t) <= 16 && Minute(t) != 0 && Minute(t) != 30
  {
    if |t| != 5 then Some(TimeFormatMessage)
    else
      var p := Split(t, ':');
      if |p| != 2 then Some(TimeFormatMessage)
      else if ParseInt(p[0]).None? || ParseInt(p[1]).None? then Some(TimeValueMessage)
      else
        var hour := ParseInt(p[0]).value;
        var minute := ParseInt(p[1]).value;
        if hour < 10 || hour > 16 then Some(BusinessHoursMessage)
        else if minute != 30 && minute != 0 then Some(HalfHourMessage)
        else None
  }

  /** What is wrong with a date slot, if anything: it must parse, lie after today, and fall
      on Monday to Friday. */
  function DateProblem(date: string, parse: string -> Option<int>, today: int): (r: Option<string>)
    ensures r.None? <==> parse(date).Some? && today < parse(date).value && IsWorkday(parse(date).value)
    ensures r == Some(UnknownDateMessage) <==> parse(date).None?
    ensures r == Some(AdvanceMessage) <==> parse(date).Some? && parse(date).value <= today
    ensures r == Some(WeekendMessage) <==>
      parse(date).Some? && today < parse(date).value && !IsWorkday(parse(date).value)
  {
    match parse(date)
    case None => Some(UnknownDateMessage)
    case Some(d) =>
      if d <= today then Some(AdvanceMessage)
      else if Weekday(d) >= 5 then Some(WeekendMessage)
      else None
  }

  /** Whether the present slots pass their own checks. */
  predicate TypeOk(slots: Slots) {
    Filled(slots.appointmentType) ==> Duration(slots.appointmentType.value).Some?
  }

  predicate TimeOk(slots: Slots) {
    Filled(slots.time) ==> TimeProblem(slots.time.value).None?
  }

  predicate DateOk(slots: Slots, parse: string -> Option<int>, today: int) {
    Filled(slots.date) ==> DateProblem(slots.date.value, parse, today).None?
  }

  /** `validate_book_appointment`: only present slots are checked; the verdict is valid
      exactly when each of them passes, and otherwise names the first failing slot in the
      order type, time, date, with that slot's own message. */
  function Validate(slots: Slots, parse: string -> Option<int>, today: int): (r: Verdict)
    ensures r.Valid? <==> TypeOk(slots) && TimeOk(slots) && DateOk(slots, parse, today)
    ensures r == Invalid(AppointmentType, UnknownTypeMessage) <==> !TypeOk(slots)
    ensures r.Invalid? && r.slot == Time <==> TypeOk(slots) && !TimeOk(slots)
    ensures r.Invalid? && r.slot == Time ==> Some(r.message) == TimeProblem(slots.time.value)
    ensures r.Invalid? && r.slot == Date <==> TypeOk(slots) && TimeOk(slots) && !DateOk(slots, parse, today)
    ensures r.Invalid? && r.slot == Date ==> Some(r.message) == DateProblem(slots.date.value, parse, today)
  {
    if Filled(slots.appointmentType) && Duration(slots.appointmentType.value).None? then
      Invalid(AppointmentType, UnknownTypeMessage)
    else if Filled(slots.time) && TimeProblem(slots.time.value).Some? then
      Invalid(Time, TimeProblem(slots.time.value).value)
    else if Filled(slots.date) && DateProblem(slots.date.value, parse, today).Some? then
      Invalid(Date, DateProblem(slots.date.value, parse, today).value)
    else
      Valid
  }

  /** A time that passes validation is a clock, and its zero-padded form (the one
      fulfilment books) is the grid start for its hour and half hour. */
  lemma AcceptedTimeOnGrid(t: string) returns (k: nat)
    requires TimeProblem(t).None?
    ensures IsClock(t) && k < 14
    ensures k == 2 * (Hour(t) - 10) + Minute(t) / 30
    ensures Canonical(t) == GridTime(k) && Canonical(t) in Grid()
  {
    var h, m := Hour(t), Minute(t);
    k := 2 * (h - 10) + m / 30;
    PaddedParts(h, m, k);
    CanonicalWrites(t, IntToString(h), MinuteText(k));
    GridWrites(k, h, MinuteText(k));
    assert Grid()[k] == GridTime(k);
  }

  /** The padded hour and minute of an accepted time are the grid's texts. */
  lemma PaddedParts(h: int, m: int, k: nat)
    requires 10 <= h <= 16 && (m == 0 || m == 30) && k == 2 * (h - 10) + m / 30
    ensures Pad2(h) == IntToString(h) && Pad2(m) == MinuteText(k)
    ensures h == 10 + k / 2 && k < 14
  {
    GridIndex(h, m, k);
    if m == 0 {
      ZeroText();
    } else {
      ThirtyText();
    }
  }

  /** The grid index of an accepted hour and minute. */
  lemma GridIndex(h: int, m: int, k: nat)
    requires 10 <= h <= 16 && (m == 0 || m == 30) && k == 2 * (h - 10) + m / 30
    ensures h == 10 + k / 2 && k < 14
    ensures k % 2 == (if m == 0 then 0 else 1)
  {
    if m == 0 {
      assert k == 2 * (h - 10);
    } else {
      assert k == 2 * (h - 10) + 1;
    }
  }

  /** Every grid start passes the time checks. */
  lemma GridTimeAccepted(k: nat)
    requires k < 14
    ensures TimeProblem(GridTime(k)).None?
  {
    GridChars(k);
    GridClock(k);
  }

  /** Every date the date card offers passes the date checks, provided the date parser
      reads the button's `%Y-%m-%d` value as the year, month and day it spells. */
  lemma OfferedDateAccepted(parse: string -> Option<int>, today: int, i: nat)
    requires i < 5 && today >= 0
    requires var v := FormatIso(WorkdaysAfter(today, 5)[i]); parse(v) == ReadIso(v)
    ensures DateProblem(FormatIso(WorkdaysAfter(today, 5)[i]), parse, today).None?
  {
    IsoRoundTrip(WorkdaysAfter(today, 5)[i]);
  }
}
